=== FILE: README.md ===
# Internal systems: authorization service and employee directory, in Dafny

This project models the request-handling core of two small HTTP services and
the shared library they use. It proves properties of that model.

- **Authorization service.** It covers both OAuth 2.0 grants of `POST /oauth/token`: the authorization-code grant and the refresh-token grant, which rotates the refresh token.
  - `POST /oauth/revoke` revokes a refresh token.
  - `GET /userinfo` verifies a bearer token and returns the profile.
  - `GET` and `POST /rbac/roles` list and register roles.
  - `issueTokensForUser` mints the token pair.
  - `resetAuthState` seeds the stores.
- **Employee directory.** It covers create, read and partial update of employees, and the configurable email-uniqueness rule.
  - It also covers the department and job-grade listings and `resetEmployeeState`.
  - Request bodies are checked by the zod schemas of the shared core: create, update, response, department and job grade.
- **Shared core.** This part covers the built-in RBAC roles and their descriptions.
  - It also covers the access-token payload that `issueAccessToken` assembles and the claim checks that `verifyAccessToken` performs.

Every handler is a pure function. It takes the stores, an environment and the parsed body, and returns the new stores and the response.

**Environment.** Each request sees:
- on the authorization side, the configuration, the clock in milliseconds and the UUID `randomUUID` would return;
- on the employee side, the duplicate-email policy, the current ISO timestamp and the UUID.

**Modules and files.**

| Module | File | Contents |
|---|---|---|
| `Base` | `base.dfy` | optional values; UTF-16 length; the JavaScript `\s` class |
| `Roles` | `roles.dfy` | the built-in roles |
| `Jwt` | `jwt.dfy` | token claims |
| `Bearer` | `bearer.dfy` | the `Authorization` header |
| `AuthService` | `auth_service.dfy` | the authorization handlers |
| `AuthProperties` | `auth_properties.dfy` | whole-history properties of the authorization service |
| `EmployeeSchema` | `employee_schema.dfy` | the schemas |
| `EmployeeService` | `employee_service.dfy` | the employee handlers |
| `EmployeeProperties` | `employee_properties.dfy` | invariants and round trips of the employee store |

**Library behaviour taken as parameters.** The model does not reimplement some library behaviour; these enter as parameters or lemma hypotheses:
- **jose signing and decoding.** A `Jwt.Codec` value stands for them.
  - `RoundTrips`: a token decodes, under the key that signed it, to its payload.
  - `CompactTokens`: signed tokens do not begin with whitespace.
  - Lemmas that need these two facts take them as hypotheses.
- **zod's email and ISO date-time checks.** An `EmployeeSchema.Formats` value stands for them.
  - `RejectsEmptyEmail`: the email check refuses the empty string.
  - `AcceptsSeed`: the checks accept the seed data.
  - Lemmas that need these take them as hypotheses.

## Model

| member | source | states |
|---|---|---|
| Base.Utf16Length | packages/core/src/schemas/employee.ts:6-9 | the length zod's `min`/`max` compare is at least the character count and at most twice it, and is zero only for the empty string |
| Base.Utf16LengthOfBmp | apps/auth-api/src/app.ts:95-99 | on text without astral characters the UTF-16 length equals the character count (proof by induction) |
| Roles.DescriptionOf | packages/core/src/auth/roles.ts:11-17 | a built-in role's description is the table entry of that very role, and no other role has the same description |
| Roles.RoleDescriptionPairs | packages/core/src/auth/roles.ts:11-17 | the five role-to-description pairs of the table, role by role |
| Roles.RbacRolesInOrder | packages/core/src/auth/roles.ts:1-7 | the built-in roles are exactly employee, manager, hr_admin, finance_admin, system_admin, in that order |
| Roles.RbacRolesDistinct | packages/core/src/auth/roles.ts:1-7 | no built-in role is declared twice |
| Roles.IsRbacRoleIsMembership | packages/core/src/auth/roles.ts:9 | a string is an `RbacRole` exactly when it is one of the five names |
| Roles.RoleDescriptionsCoverRoles | packages/core/src/auth/roles.ts:11-17 | the description table is keyed by exactly the built-in roles |
| Jwt.FilterRoles | packages/core/src/auth/jwt.ts:34-35 | the token's roles are only built-in roles, and each built-in role keeps its number of occurrences |
| Jwt.FilterRolesKeepsExactlyBuiltins | packages/core/src/auth/jwt.ts:34-35 | a role reaches the token if and only if it was requested and is built-in |
| Jwt.FilterRolesKeepsOrder | packages/core/src/auth/jwt.ts:35 | filtering keeps the requested order (the result is a subsequence of the input) |
| Jwt.EpochSeconds | packages/core/src/auth/jwt.ts:50-51 | issued-at is the clock reading in whole seconds, rounded down |
| Jwt.AccessTokenClaims | packages/core/src/auth/jwt.ts:37-51 | the payload carries the filtered roles, subject, issuer, issued-at and expiry = issued-at + TTL; the audience when non-empty; every caller claim that is not one of those; and nothing else |
| Jwt.VerifyAccessToken | packages/core/src/auth/jwt.ts:55-67 | a verified payload is the decoded one; it has an `iss` claim equal to the expected issuer when that is non-empty; an `aud` claim whenever an audience is expected, naming it when it is non-empty; and an expiration after the current second. Conversely, every decoded payload that meets these checks is accepted |
| Jwt.IssueThenVerify | packages/core/src/auth/jwt.ts:25-67 | a token issued with a key, issuer and audience verifies with the same ones exactly until its expiration second, to the payload it was issued with; an empty audience with no caller `aud` claim makes it never verify |
| Bearer.LowerAscii | apps/auth-api/src/app.ts:207 | the `i` flag's folding: the result is a lower-case letter exactly when the input is a letter of either case, and then the input is that letter or its upper-case form; everything else is unchanged |
| Bearer.SkipSpaces | apps/auth-api/src/app.ts:207 | the greedy `\s+` removes a prefix made only of whitespace and leaves text that does not start with whitespace |
| Bearer.StripBearer | apps/auth-api/src/app.ts:207 | a header without a `Bearer<space>` prefix (any case) is used unchanged; with one, the result is the header's suffix after the prefix and all whitespace that follows it |
| Bearer.StripBearerOfIssuedHeader | apps/auth-api/src/app.ts:207 | `Bearer <token>` yields the token back when the token does not start with whitespace |
| AuthService.IssueTokensForUser | apps/auth-api/src/app.ts:260-297 | the response is a Bearer token pair with the TTL and the fixed scope; the access token is the one signed for that user and audience; the refresh token `rt_<uuid>` is recorded for the user and audience, unrevoked, expiring after ten TTLs; the rest of the ledger and the other stores are unchanged |
| AuthService.AuthorizationCodeGrant | apps/auth-api/src/app.ts:123-143 | missing or empty code → invalid_request; unknown code or empty user id → invalid_grant "code not found"; unknown user → invalid_grant "user not found"; otherwise granted with `expires_in` equal to the access TTL, the code is consumed and exactly one refresh token `rt_<uuid>` is added to the ledger: an unrevoked record for that code's user and the configured audience, expiring after ten TTLs (when users are keyed by id, bound to exactly the user id the code maps to), every other entry kept; every failure leaves the stores unchanged |
| AuthService.RefreshTokenGrant | apps/auth-api/src/app.ts:145-174 | each failure branch in source order (missing, not found, revoked, expired with deletion, user not found) with its description and resulting stores; a success removes the presented token and answers the access token signed for the record's user and audience |
| AuthService.TokenEndpoint | apps/auth-api/src/app.ts:109-177 | the schema rejects a request exactly when its grant type is neither of the two, and then nothing changes; `authorization_code` runs the code grant on the body's code and `refresh_token` runs the refresh grant on the body's refresh token |
| AuthService.Revoke | apps/auth-api/src/app.ts:179-199 | missing token → schema rejection; unknown token → "ignored" with no change; a known token, in a ledger whose entries are stored under their own tokens (which every handler keeps), → "revoked", and the record is stamped with the revocation time |
| AuthService.RegisterRole | apps/auth-api/src/app.ts:239-258 | an invalid body is rejected; a built-in or already-registered key → conflict with no change; otherwise the role is appended; registered keys stay distinct and never built-in |
| AuthService.ListRoles | apps/auth-api/src/app.ts:229-237 | the built-in roles first, in declaration order, then the custom roles in registration order |
| AuthService.Coalesce | apps/auth-api/src/app.ts:220-222 | `a ?? b ?? c` yields `a` when it is present and non-null, otherwise `b` when it is present and non-null, otherwise `c` |
| AuthService.UserInfoEndpoint | apps/auth-api/src/app.ts:201-227 | unauthorized exactly when the header is missing or empty; invalid_token exactly when the stripped token fails verification against the configured issuer, key and audience; a profile answer comes from the verified payload, and each of name, email and roles is the payload's claim, else the stored user's field, else the placeholder |
| AuthService.InitialAuthState | apps/auth-api/src/app.ts:13-80 | the seed holds exactly one code, `demo-code` for the demo user, only the demo user, no refresh tokens and no custom roles, and satisfies the ledger, registry and user-key invariants |
| AuthProperties.Handle | apps/auth-api/src/app.ts:109-258 | every request keeps the invariant, never adds or rebinds an authorization code, and never changes the users |
| AuthProperties.RunKeepsInvariant | apps/auth-api/src/app.ts:109-258 | every request history keeps the invariant (induction on the history) |
| AuthProperties.RunNeverAddsCodes | apps/auth-api/src/app.ts:138 | no request history adds an authorization code |
| AuthProperties.CodeIsSingleUse | apps/auth-api/src/app.ts:128-138 | after a code is redeemed, redeeming it again after any further requests is invalid_grant and changes nothing |
| AuthProperties.HandleKeepsRevoked | apps/auth-api/src/app.ts:145-199 | a revoked token stays revoked through any request that does not mint that exact token |
| AuthProperties.RunKeepsRevoked | apps/auth-api/src/app.ts:155-199 | a revoked token stays revoked through any history whose UUIDs do not recreate it |
| AuthProperties.RevokedTokenNeverRefreshes | apps/auth-api/src/app.ts:155-198 | once revoked, every later `/oauth/token` refresh request with that token fails as revoked and changes nothing, whatever its expiry and the clock |
| AuthProperties.RefreshSucceedsUntilExpiry | apps/auth-api/src/app.ts:159-162 | for a live token of an existing user, a `/oauth/token` refresh request succeeds if and only if now ≤ expiresAt; after that it is answered "expired" and the token is dropped |
| AuthProperties.RefreshRotatesToken | apps/auth-api/src/app.ts:164-295 | a successful refresh replaces the presented token with a different, previously unknown one for the same user and audience, expiring after ten TTLs; all other entries are untouched |
| AuthProperties.RevokeTouchesOnlyTarget | apps/auth-api/src/app.ts:191-198 | revocation changes only the named record's revocation time, or nothing at all for an unknown token |
| AuthProperties.RoleKeyLength | apps/auth-api/src/app.ts:95-98 | a key in the `[a-z0-9:_-]` alphabet has UTF-16 length equal to its character count |
| AuthProperties.BuiltinKeyChars | apps/auth-api/src/app.ts:95-98 | every built-in role name passes the key pattern and is at least three characters long |
| AuthProperties.BuiltinKeyConflicts | apps/auth-api/src/app.ts:252-254 | registering a built-in role's key always answers conflict and changes nothing |
| AuthProperties.RegisterAppendsToListing | apps/auth-api/src/app.ts:235-256 | a successful registration appends exactly the new role to the listing |
| AuthProperties.ListedKeysDistinct | apps/auth-api/src/app.ts:229-254 | the role listing never shows a key twice |
| AuthProperties.DemoRolesKept | packages/core/src/auth/jwt.ts:34-35 | both roles of the demo user survive filtering |
| AuthProperties.IssuedAccessTokenShowsProfile | apps/auth-api/src/app.ts:201-280 | with a non-empty configured audience, an access token issued for any user, presented before expiry, makes `/userinfo` return that user's id, display name, email and built-in roles |
| AuthProperties.IssuedHeaderVerifies | apps/auth-api/src/app.ts:207-214 | `Bearer <issued token>` verifies before expiry to the issued payload, unless an empty expected audience demands an `aud` claim the token lacks |
| AuthProperties.EmptyAudienceTokensRefused | apps/auth-api/src/app.ts:209-225 | with an empty configured audience, every access token the service issues is answered invalid_token at `/userinfo`, because jose requires an `aud` claim that is never set |
| AuthProperties.ProfileClaims | apps/auth-api/src/app.ts:276-279 | the issued token carries the user's name and email claims |
| AuthProperties.CodeGrantIssuesFor | apps/auth-api/src/app.ts:133-140 | a granted code yields Bearer tokens with the fixed scope and an access token signed for the code's user and the configured audience |
| AuthProperties.CodeGrantThenUserInfo | apps/auth-api/src/app.ts:123-227 | with a non-empty configured audience, redeeming a code and then calling `/userinfo` before expiry yields the profile of the code's user |
| AuthProperties.CodeGrantThenRefresh | apps/auth-api/src/app.ts:123-174 | with users stored under their own ids (as seeded and kept by every handler), the refresh token a code grant answers, presented at `/oauth/token` with a fresh uuid before its expiry, is granted, rotated out of the ledger and replaced by a different refresh token |
| AuthProperties.RefreshGrantThenUserInfo | apps/auth-api/src/app.ts:145-227 | with a non-empty configured audience, the access token of a successful refresh, presented at `/userinfo` before expiry, shows the profile of the ledger record's user |
| AuthProperties.DemoCodeGrantsBearer | apps/auth-api/src/app.ts:123-143 | from the seed, `demo-code` is granted with Bearer tokens and the scope `openid profile email offline_access` |
| AuthProperties.DemoCodeThenUserInfo | apps/auth-api/src/app.ts:201-227 | from the seed and with a non-empty configured audience, the demo code's access token yields demo-user, "Demo User", its email and the roles employee and manager |
| AuthProperties.UserInfoFromPayload | apps/auth-api/src/app.ts:216-223 | when the token verifies and carries name, email and roles, `/userinfo` returns those claims and the subject |
| AuthProperties.UserInfoFallsBack | apps/auth-api/src/app.ts:216-222 | when a verified token lacks name, email or roles, the answer carries that field of the user its `sub` names, and otherwise "Unknown User", "unknown@example.com" or no roles |
| AuthProperties.RevokeFreshTokenThenRefresh | apps/auth-api/src/app.ts:179-199 | from the seed, revoking a freshly issued refresh token makes the next refresh with it fail as revoked |
| EmployeeSchema.BaseFieldsOf | packages/core/src/schemas/employee.ts:33-38 | a stored record viewed as a body carries every required field and its status |
| EmployeeSchema.CreateValidMeaning | packages/core/src/schemas/employee.ts:5-24 | a valid create body has a 1–64 character code, non-empty names, department and title, a listed status when given, a non-empty manager id when given, and well-formed email and joining date |
| EmployeeSchema.EmployeeCodeCountsCodeUnits | packages/core/src/schemas/employee.ts:6-9 | 64 astral characters exceed the 64-unit code limit, because zod counts UTF-16 code units |
| EmployeeSchema.EmployeeCodeOfBmp | packages/core/src/schemas/employee.ts:6-9 | for text without astral characters the code is accepted if and only if it has 1 to 64 characters |
| EmployeeSchema.AstralLength | packages/core/src/schemas/employee.ts:6-9 | text of astral characters has two code units per character (induction) |
| EmployeeSchema.UpdateNeedsAField | packages/core/src/schemas/employee.ts:26-31 | an update body is valid if and only if every given field is valid and at least one field is given; the empty body is rejected |
| EmployeeSchema.CreateBodyIsUpdateBody | packages/core/src/schemas/employee.ts:24-31 | every valid create body is a valid update body |
| EmployeeService.CreateRecord | apps/employee-api/src/app.ts:116-133 | the record carries every body field, defaults status to `active`, takes the given id, and uses one timestamp for both creation and update |
| EmployeeService.ApplyUpdate | apps/employee-api/src/app.ts:135-155 | the fields the patch carries overwrite and all others are kept; id and creation time never change; the update time is the new timestamp |
| EmployeeService.EnsureEmailUnique | apps/employee-api/src/app.ts:157-167 | the loop returns normally if and only if duplicates are allowed or no stored record other than the excluded id uses the email |
| EmployeeService.ListEmployees | apps/employee-api/src/app.ts:177-180 | the listing succeeds exactly when every stored record passes the response schema, and then contains exactly the stored records |
| EmployeeService.GetEmployee | apps/employee-api/src/app.ts:203-210 | not_found exactly for an unknown id; otherwise the stored record, or a server error when the response schema rejects it |
| EmployeeService.PostEmployee | apps/employee-api/src/app.ts:182-201 | invalid body → 400 with no change; email taken while duplicates are disallowed → 409 with no change; otherwise the new record is stored under the UUID, and the answer is 201 with it when it passes the response schema, a server error when not |
| EmployeeService.PatchEmployee | apps/employee-api/src/app.ts:212-239 | 404 exactly for an unknown id, before the body is checked; invalid body → 400; a non-empty email another record uses, with duplicates disallowed → 409; otherwise the target becomes the update of the old record and the answer is 200 with it, or a server error when the response schema rejects it; no other record changes |
| EmployeeService.ListDepartments | apps/employee-api/src/app.ts:241-244 | the listing succeeds exactly when every department passes its schema, and then is the stored departments in store order |
| EmployeeService.ListJobGrades | apps/employee-api/src/app.ts:246-249 | the listing succeeds exactly when every job grade passes its schema, and then is the stored job grades in store order |
| EmployeeService.InitialEmployeeState | apps/employee-api/src/app.ts:20-77 | the seed has two employees keyed by their ids with distinct emails, and two departments and two job grades with distinct ids, in seeding order |
| EmployeeProperties.CreatedRecordResponseValid | apps/employee-api/src/app.ts:114-133 | a record created from a valid body, with a non-empty id and a date-time stamp, passes the response schema |
| EmployeeProperties.OverlayKeepsCreateValid | packages/core/src/schemas/employee.ts:5-31 | valid patch fields overlaid on a valid create body give a valid create body |
| EmployeeProperties.UpdatePreservesResponseValid | apps/employee-api/src/app.ts:135-155 | updating a valid record with a valid patch at a date-time stamp gives a valid record |
| EmployeeProperties.PostKeepsInvariant | apps/employee-api/src/app.ts:182-201 | create keeps records keyed by id, valid and (when duplicates are disallowed) email-unique, and never answers with a server error |
| EmployeeProperties.PatchKeepsInvariant | apps/employee-api/src/app.ts:212-239 | update keeps the same invariant and never answers with a server error, given that the email format rejects "" |
| EmployeeProperties.ReplaceKeepsStoreValid | apps/employee-api/src/app.ts:198-236 | storing a valid record under its own id keeps the store valid |
| EmployeeProperties.ReplaceKeepsEmailsUnique | apps/employee-api/src/app.ts:159-198 | storing a record whose email no other key uses keeps emails unique |
| EmployeeProperties.PatchedEmailIsFree | apps/employee-api/src/app.ts:224-236 | after an update passes the email rule, no other employee has the target's new email |
| EmployeeProperties.PostThenGet | apps/employee-api/src/app.ts:197-210 | a created employee reads back unchanged under its new id |
| EmployeeProperties.PostAddsOneRecord | apps/employee-api/src/app.ts:182-201 | a valid body with an available email, under a fresh UUID and a well-formed environment, is answered 201 with the new record, and the store gains exactly that record and keeps every other |
| EmployeeProperties.PostDuplicateEmailConflicts | apps/employee-api/src/app.ts:159-195 | with duplicates disallowed, creating with any stored employee's email is a conflict that changes nothing |
| EmployeeProperties.DuplicatesAllowedNeverConflict | apps/employee-api/src/app.ts:157-160 | with duplicates allowed, neither create nor update ever conflicts |
| EmployeeProperties.DuplicatesAllowedCreates | apps/employee-api/src/app.ts:157-200 | with duplicates allowed, every valid body in a well-formed environment is created, whatever emails are stored |
| EmployeeProperties.PatchOwnEmailNeverConflicts | apps/employee-api/src/app.ts:224-226 | re-sending an employee's own email never conflicts in a store that keeps the invariant |
| EmployeeProperties.PatchThenGet | apps/employee-api/src/app.ts:203-238 | a successful update reads back as the update of the old record |
| EmployeeProperties.ApplyUpdateIdempotent | apps/employee-api/src/app.ts:135-155 | applying the same patch twice at one timestamp equals applying it once |
| EmployeeProperties.ApplyUpdateComposes | apps/employee-api/src/app.ts:135-155 | two successive patches equal one merged patch in which the later fields win |
| EmployeeProperties.UpdateWithCreateBody | apps/employee-api/src/app.ts:116-155 | updating a new record with the body it was created from changes only the update time |
| EmployeeProperties.PatchWithOwnFields | apps/employee-api/src/app.ts:135-155 | sending a record's own fields as a patch changes only the update time |
| EmployeeProperties.SeedKeepsInvariant | apps/employee-api/src/app.ts:20-77 | the seed data satisfies the invariant, and all three listings succeed on it |
| EmployeeProperties.SeedStoreValid | apps/employee-api/src/app.ts:42-75 | the seeded employee store is valid |
| EmployeeProperties.PairStoreValid | apps/employee-api/src/app.ts:75 | a store of two valid records keyed by their ids is valid |
| EmployeeProperties.SeedReferenceListings | apps/employee-api/src/app.ts:241-249 | the seeded departments list as People Operations then Engineering, and the job grades as IC-3 then M-2 |
| EmployeeProperties.PairsListed | apps/employee-api/src/app.ts:241-249 | two valid departments and two valid job grades are listed as stored, in order |
| EmployeeProperties.SeedEmployeesValid | apps/employee-api/src/app.ts:42-73 | both seed employees pass the response schema |
| EmployeeProperties.ShortRecordValid | packages/core/src/schemas/employee.ts:33-38 | a record with short non-empty texts, a listed status and accepted formats passes the response schema |
| EmployeeProperties.Handle | apps/employee-api/src/app.ts:177-249 | no request changes the departments or job grades, or removes an employee |
| EmployeeProperties.RunKeepsInvariant | apps/employee-api/src/app.ts:177-249 | every request history keeps the invariant, given well-formed UUIDs and timestamps (induction) |
| EmployeeProperties.RunKeepsReferenceData | apps/employee-api/src/app.ts:241-249 | no request history changes the reference data or removes an employee |
| EmployeeProperties.SeededRunsStayValid | apps/employee-api/src/app.ts:177-266 | from the seed, every request history keeps the invariant and every listing succeeds |

## Left out

- HTTP routing, JSON parsing and zod error details. Malformed bodies are modelled only as a schema rejection (an `Option` field or a `Draft` field being absent), and error bodies are reduced to their kind and description.
- A body that is not JSON: the employee service answers it 400 `invalid_json` (apps/employee-api/src/app.ts:88-112), which is the model's `InvalidRequest`. The authorization service calls `c.req.json()` unguarded (apps/auth-api/src/app.ts:110, 180 and 240), so the parse error escapes to the framework, which answers 500 with no store changed. The model has no outcome for that case.
- The health endpoints (`GET /` of both services) and `packages/db`, the scripts, `config.ts` and `index.ts` are not part of this model; the configuration enters as `AuthConfig` and the `allowDuplicateEmail` flag.
- Concurrency is abstracted away: every handler is one atomic step, and the history lemmas cover sequential histories only. In the source the refresh grant awaits the signing of the new access token (apps/auth-api/src/app.ts:169) between its checks and the deletion of the presented token (:171). A revocation or a second refresh of the same token can run in that gap, so a token answered "revoked" can still yield fresh tokens, or two token families can survive one refresh token. Likewise `PATCH /employees/:id` reads the record (apps/employee-api/src/app.ts:214) before awaiting the body (:219), so of two overlapping updates of one record the later write can drop the earlier one's fields.
- `randomUUID`, `Date.now()` and `new Date().toISOString()` are parameters. Freshness of a UUID is a lemma hypothesis where a property needs it, because the source does not check it.
- jose: HS256, the protected header, the `typ`/`alg` header checks, the type checks on `nbf` and `iat`, and clock tolerance are not modelled. `Jwt.Codec` stands for signing and decoding.
- Jwt.VerifyAccessToken: it models jose's presence checks for `iss` and `aud` and its issuer, audience and expiry comparisons, and nothing else. In particular a token carrying an `nbf` claim in the future is accepted by the model but refused by jose; the tokens this service issues never carry one.
- Jwt.AccessTokenClaims: the audience is the single-string form only. `issueTokensForUser` always receives a string, because `tokenRequestSchema` has no `audience` field and zod strips it, so `payload.audience ?? config.audience` is always the configured audience.
- Jwt.EpochSeconds: issue time and expiry are computed from one clock reading. jose reads the clock separately for `iat` and `exp`.
- AuthService.UserInfoEndpoint: only a string `sub` finds a user. `String(payload.sub)` of a non-string subject is not modelled.
- `unsupported_grant_type` (apps/auth-api/src/app.ts:176) is unreachable, since the schema admits only the two grant types. The model has no such outcome.
- `AuthConfig.accessTokenTtlSeconds` is a `nat`. A fractional or negative TTL from the environment is not modelled.
- EmployeeService.ListEmployees: the listing is a set. The insertion order of the employee `Map` is not modelled, because create appends and update keeps the position. The department and job-grade listings do keep store order (`ListDepartments`, `ListJobGrades`).
- zod's email and date-time grammars are parameters (`Formats`). Only `RejectsEmptyEmail` and `AcceptsSeed` are assumed, and only as lemma hypotheses.
- The roles of a user record are plain strings. The `RbacRole[]` type annotation is not enforced at run time, and `FilterRoles` handles any string.

=== FILE: auth_properties.dfy ===
/**
 Safety properties of the authorization service over whole request
 histories: refresh-token rotation, strict expiry, single-use codes, no
 replay after revocation, and the role listing.
 */
module AuthProperties {
  import opened Base
  import opened Roles
  import opened Jwt
  import opened Bearer
  import opened AuthService

  /** The invariant every reachable state keeps. */
  ghost predicate AuthInvariant(s: AuthState) {
    LedgerWellFormed(s.ledger) && RegistryWellFormed(s.customRoles) && UsersKeyedById(s.users)
  }

  /** Any request the service answers. */
  datatype AuthRequest =
    | TokenCall(body: TokenRequest)
    | RevokeCall(token: Option<string>)
    | RegisterRoleCall(registration: RoleRegistration)
    | ListRolesCall
    | UserInfoCall(authorization: Option<string>)

  /** A request together with the clock reading and the UUID it sees. */
  datatype Call = Call(now: int, uuid: string, request: AuthRequest)

  /** The stores after answering one request. */
  function Handle(s: AuthState, config: AuthConfig, codec: Codec, call: Call): (s': AuthState)
    ensures AuthInvariant(s) ==> AuthInvariant(s')
    ensures s'.codes.Keys <= s.codes.Keys
    ensures forall c :: c in s'.codes ==> s'.codes[c] == s.codes[c]
    ensures s'.users == s.users
  {
    var env := Env(config, codec, call.now, call.uuid);
    match call.request
    case TokenCall(body) => TokenEndpoint(s, env, body).state
    case RevokeCall(token) => Revoke(s, call.now, token).state
    case RegisterRoleCall(registration) => RegisterRole(s, registration).state
    case ListRolesCall => s
    case UserInfoCall(_) => s
  }

  /** The stores after answering `calls` in order. */
  function Run(s: AuthState, config: AuthConfig, codec: Codec, calls: seq<Call>): AuthState
    decreases |calls|
  {
    if |calls| == 0 then s else Run(Handle(s, config, codec, calls[0]), config, codec, calls[1..])
  }

  /** Every request history keeps the invariant. */
  lemma {:induction false} RunKeepsInvariant(s: AuthState, config: AuthConfig, codec: Codec, calls: seq<Call>)
    requires AuthInvariant(s)
    ensures AuthInvariant(Run(s, config, codec, calls))
    decreases |calls|
  {
    if |calls| > 0 {
      RunKeepsInvariant(Handle(s, config, codec, calls[0]), config, codec, calls[1..]);
    }
  }

  /** No request ever adds an authorization code or rebinds one. */
  lemma {:induction false} RunNeverAddsCodes(s: AuthState, config: AuthConfig, codec: Codec, calls: seq<Call>)
    ensures Run(s, config, codec, calls).codes.Keys <= s.codes.Keys
    decreases |calls|
  {
    if |calls| > 0 {
      RunNeverAddsCodes(Handle(s, config, codec, calls[0]), config, codec, calls[1..]);
    }
  }

  /**
   Codes are single-use: once a code has been redeemed, redeeming it again —
   after any further requests — fails with `invalid_grant` and changes nothing.
   */
  lemma CodeIsSingleUse(s: AuthState, env: Env, code: string, calls: seq<Call>, later: Env)
    requires AuthorizationCodeGrant(s, env, Some(code)).outcome.Granted?
    ensures var after := Run(AuthorizationCodeGrant(s, env, Some(code)).state, later.config, later.codec, calls);
      AuthorizationCodeGrant(after, later, Some(code)) == Step(after, InvalidGrant(CodeNotFound))
  {
    var redeemed := AuthorizationCodeGrant(s, env, Some(code)).state;
    assert code !in redeemed.codes;
    RunNeverAddsCodes(redeemed, later.config, later.codec, calls);
  }

  /** The token is in the ledger and revoked. */
  ghost predicate IsRevoked(s: AuthState, token: string) {
    token in s.ledger && s.ledger[token].revokedAt.Some?
  }

  /** One request keeps a revoked token revoked, unless it mints exactly that token anew. */
  lemma HandleKeepsRevoked(s: AuthState, config: AuthConfig, codec: Codec, call: Call, token: string)
    requires LedgerWellFormed(s.ledger) && IsRevoked(s, token)
    requires RefreshTokenPrefix + call.uuid != token
    ensures IsRevoked(Handle(s, config, codec, call), token)
  {
  }

  /**
   No replay after revocation: once a refresh token is revoked it stays
   revoked through any later requests whose UUIDs do not recreate it.
   */
  lemma {:induction false} RunKeepsRevoked(s: AuthState, config: AuthConfig, codec: Codec, calls: seq<Call>, token: string)
    requires AuthInvariant(s) && IsRevoked(s, token)
    requires forall i :: 0 <= i < |calls| ==> RefreshTokenPrefix + calls[i].uuid != token
    ensures IsRevoked(Run(s, config, codec, calls), token)
    decreases |calls|
  {
    if |calls| > 0 {
      HandleKeepsRevoked(s, config, codec, calls[0], token);
      var next := Handle(s, config, codec, calls[0]);
      assert forall i :: 0 <= i < |calls[1..]| ==> calls[1..][i] == calls[i + 1];
      RunKeepsRevoked(next, config, codec, calls[1..], token);
    }
  }

  /** A `/oauth/token` body asking to refresh `token`; `code` is whatever else the body carries. */
  function RefreshRequest(token: string, code: Option<string>): TokenRequest {
    TokenRequest(Some(RefreshTokenGrantType), code, Some(token))
  }

  /**
   After a revocation, every later `/oauth/token` refresh request with that
   token fails with `invalid_grant` and changes nothing, whatever the token's
   expiry and whatever the clock.
   */
  lemma RevokedTokenNeverRefreshes(s: AuthState, now: int, token: string, calls: seq<Call>, config: AuthConfig,
                                   codec: Codec, later: Env, code: Option<string>)
    requires AuthInvariant(s) && token != "" && token in s.ledger
    requires forall i :: 0 <= i < |calls| ==> RefreshTokenPrefix + calls[i].uuid != token
    ensures var after := Run(Revoke(s, now, Some(token)).state, config, codec, calls);
      TokenEndpoint(after, later, RefreshRequest(token, code)) == Step(after, InvalidGrant(RefreshTokenRevoked))
  {
    var revoked := Revoke(s, now, Some(token)).state;
    assert AuthInvariant(revoked);
    assert IsRevoked(revoked, token);
    RunKeepsRevoked(revoked, config, codec, calls, token);
  }

  /**
   A `/oauth/token` refresh request succeeds exactly for a present,
   unrevoked, unexpired token of an existing user; expiry is strict, so the
   token is still good at `now == expiresAt`, and one millisecond later it is
   answered "expired" and dropped.
   */
  lemma RefreshSucceedsUntilExpiry(s: AuthState, env: Env, token: string, code: Option<string>)
    requires token != "" && token in s.ledger && s.ledger[token].revokedAt.None?
    requires s.ledger[token].userId in s.users
    ensures TokenEndpoint(s, env, RefreshRequest(token, code)).outcome.Granted? <==> env.now <= s.ledger[token].expiresAt
    ensures env.now > s.ledger[token].expiresAt ==>
      TokenEndpoint(s, env, RefreshRequest(token, code))
        == Step(s.(ledger := s.ledger - {token}), InvalidGrant(RefreshTokenExpired))
  {
  }

  /**
   Rotation: a successful refresh removes the presented token and records a
   different, previously unknown one for the same user and audience, valid
   for ten access-token lifetimes; every other entry is untouched.
   */
  lemma RefreshRotatesToken(s: AuthState, env: Env, token: string)
    requires AuthInvariant(s)
    requires RefreshTokenPrefix + env.uuid !in s.ledger
    requires RefreshTokenGrant(s, env, Some(token)).outcome.Granted?
    ensures var r := RefreshTokenGrant(s, env, Some(token));
      var minted := r.outcome.tokens.refreshToken;
      && minted != token && minted !in s.ledger
      && token !in r.state.ledger && minted in r.state.ledger
      && r.state.ledger[minted].userId == s.ledger[token].userId
      && r.state.ledger[minted].audience == s.ledger[token].audience
      && r.state.ledger[minted].expiresAt == env.now + env.config.accessTokenTtlSeconds * 10 * 1000
      && r.state.ledger[minted].revokedAt.None?
      && r.state.ledger.Keys == s.ledger.Keys - {token} + {minted}
      && (forall t :: t in s.ledger && t != token ==> r.state.ledger[t] == s.ledger[t])
      && r.outcome.tokens.tokenType == "Bearer"
      && r.outcome.tokens.expiresIn == env.config.accessTokenTtlSeconds
      && r.outcome.tokens.scope == "openid profile email offline_access"
  {
  }

  /** Revoking touches only the named record: it stays, revoked, and the rest of the ledger is unchanged. */
  lemma RevokeTouchesOnlyTarget(s: AuthState, now: int, token: string)
    requires LedgerWellFormed(s.ledger)
    ensures var r := Revoke(s, now, Some(token));
      && r.state.ledger.Keys == s.ledger.Keys
      && r.state.codes == s.codes && r.state.users == s.users && r.state.customRoles == s.customRoles
      && (forall t :: t in s.ledger && t != token ==> r.state.ledger[t] == s.ledger[t])
      && (token in s.ledger ==> r.outcome == Revoked && r.state.ledger[token].revokedAt == Some(now)
                                && r.state.ledger[token].(revokedAt := None) == s.ledger[token].(revokedAt := None))
      && (token !in s.ledger ==> r.outcome == Ignored && r.state == s)
  {
  }

  /** Key-pattern characters are ASCII, so a key's UTF-16 length is its character count. */
  lemma RoleKeyLength(key: string)
    requires forall i :: 0 <= i < |key| ==> IsRoleKeyChar(key[i])
    ensures Utf16Length(key) == |key|
  {
    Utf16LengthOfBmp(key);
  }

  /** Every built-in role name is spelled with key-pattern characters only. */
  lemma BuiltinKeyChars(role: string)
    requires IsRbacRole(role)
    ensures forall i :: 0 <= i < |role| ==> IsRoleKeyChar(role[i])
    ensures |role| >= 3
  {
  }

  /** A built-in role key always conflicts, whatever custom roles exist. */
  lemma BuiltinKeyConflicts(s: AuthState, role: string, displayName: string, description: Option<string>)
    requires IsRbacRole(role) && Utf16Length(displayName) >= 3
    ensures RegisterRole(s, RoleRegistration(Some(role), Some(displayName), description)) == Step(s, RoleConflict)
  {
    BuiltinKeyChars(role);
    RoleKeyLength(role);
  }

  /** A successful registration appends exactly the new role to the listing. */
  lemma RegisterAppendsToListing(s: AuthState, reg: RoleRegistration)
    requires RegisterRole(s, reg).outcome.RoleCreated?
    ensures ListRoles(RegisterRole(s, reg).state) == ListRoles(s) + [RegisterRole(s, reg).outcome.role]
  {
    var r := RegisterRole(s, reg);
    assert r.state.customRoles == s.customRoles + [r.outcome.role];
    assert BuiltinEntries() + (s.customRoles + [r.outcome.role]) == (BuiltinEntries() + s.customRoles) + [r.outcome.role];
  }

  /** The listing never shows the same key twice. */
  lemma ListedKeysDistinct(s: AuthState)
    requires RegistryWellFormed(s.customRoles)
    ensures var keys := KeysOf(ListRoles(s));
      forall i, j :: 0 <= i < j < |keys| ==> keys[i] != keys[j]
  {
  }

  /** Both roles of the demo user are built-in roles, so the token carries them unfiltered. */
  lemma DemoRolesKept()
    ensures FilterRoles(DemoUser.roles) == ["employee", "manager"]
  {
  }

  /**
   With a non-empty configured audience, an access token issued for any
   user, presented as `Bearer <token>` before it expires, makes `/userinfo`
   answer with that user's id, display name, email and built-in roles.
   */
  lemma IssuedAccessTokenShowsProfile(s: AuthState, env: Env, later: Env, user: UserRecord)
    requires RoundTrips(env.codec) && CompactTokens(env.codec)
    requires later.codec == env.codec && later.config == env.config && env.config.audience != ""
    requires EpochSeconds(later.now) < EpochSeconds(env.now) + env.config.accessTokenTtlSeconds
    ensures var access := IssueAccessToken(env.codec, AccessTokenParams(env.config, user, env.config.audience), env.now);
      UserInfoEndpoint(s, later, Some("Bearer " + access))
        == UserInfo(Some(Text(user.id)), Text(user.displayName), Text(user.email), TextList(FilterRoles(user.roles)))
  {
    var p := AccessTokenParams(env.config, user, env.config.audience);
    IssuedHeaderVerifies(env.codec, p, env.now, later.now);
    ProfileClaims(env.config, user, EpochSeconds(env.now));
    UserInfoFromPayload(s, later, "Bearer " + IssueAccessToken(env.codec, p, env.now), AccessTokenClaims(p, EpochSeconds(env.now)));
  }

  /**
   A token presented as `Bearer <token>` before its expiration second
   verifies to the payload it was issued with, unless an empty expected
   audience demands an `aud` claim the token lacks.
   */
  lemma IssuedHeaderVerifies(codec: Codec, p: IssueParams, issuedMs: int, verifiedMs: int)
    requires RoundTrips(codec) && CompactTokens(codec)
    requires EpochSeconds(verifiedMs) < EpochSeconds(issuedMs) + p.ttlSeconds
    ensures var access := IssueAccessToken(codec, p, issuedMs);
      VerifyAccessToken(codec, StripBearer("Bearer " + access), p.issuer, p.signingKey, p.audience, verifiedMs)
        == if AudienceClaimMissing(p) then None else Some(AccessTokenClaims(p, EpochSeconds(issuedMs)))
  {
    var access := IssueAccessToken(codec, p, issuedMs);
    assert !StartsWithSpace(access) by {
      assert access == codec.sign(AccessTokenClaims(p, EpochSeconds(issuedMs)), p.signingKey);
    }
    StripBearerOfIssuedHeader(access);
    IssueThenVerify(codec, p, issuedMs, verifiedMs);
  }

  /**
   With an empty configured audience, every access token the service issues
   is refused at `/userinfo`: jose demands an `aud` claim that
   `issueAccessToken` never sets for an empty audience.
   */
  lemma EmptyAudienceTokensRefused(s: AuthState, env: Env, later: Env, user: UserRecord)
    requires RoundTrips(env.codec) && CompactTokens(env.codec)
    requires later.codec == env.codec && later.config == env.config && env.config.audience == ""
    requires EpochSeconds(later.now) < EpochSeconds(env.now) + env.config.accessTokenTtlSeconds
    ensures var access := IssueAccessToken(env.codec, AccessTokenParams(env.config, user, env.config.audience), env.now);
      UserInfoEndpoint(s, later, Some("Bearer " + access)) == InvalidToken
  {
    IssuedHeaderVerifies(env.codec, AccessTokenParams(env.config, user, env.config.audience), env.now, later.now);
  }

  /** The access token issued for a user carries the user's name and email among its claims. */
  lemma ProfileClaims(config: AuthConfig, user: UserRecord, issuedAt: int)
    ensures var c := AccessTokenClaims(AccessTokenParams(config, user, config.audience), issuedAt);
      && Get(c, "name") == Some(Text(user.displayName))
      && Get(c, "email") == Some(Text(user.email))
  {
  }

  /** A granted authorization code yields Bearer tokens with the fixed scope and an access token signed for the code's user. */
  lemma CodeGrantIssuesFor(s: AuthState, env: Env, code: string)
    requires AuthorizationCodeGrant(s, env, Some(code)).outcome.Granted?
    ensures var tokens := AuthorizationCodeGrant(s, env, Some(code)).outcome.tokens;
      && tokens.tokenType == BearerTokenType && tokens.scope == GrantedScope
      && tokens.accessToken
         == IssueAccessToken(env.codec, AccessTokenParams(env.config, s.users[s.codes[code]], env.config.audience), env.now)
  {
  }

  /**
   With a non-empty configured audience, redeeming a code and presenting the
   access token at `/userinfo` before it expires yields the profile of the
   user the code was issued for.
   */
  lemma CodeGrantThenUserInfo(s: AuthState, env: Env, later: Env, code: string)
    requires RoundTrips(env.codec) && CompactTokens(env.codec)
    requires later.codec == env.codec && later.config == env.config && env.config.audience != ""
    requires EpochSeconds(later.now) < EpochSeconds(env.now) + env.config.accessTokenTtlSeconds
    requires AuthorizationCodeGrant(s, env, Some(code)).outcome.Granted?
    ensures var r := AuthorizationCodeGrant(s, env, Some(code));
      var user := s.users[s.codes[code]];
      UserInfoEndpoint(r.state, later, Some("Bearer " + r.outcome.tokens.accessToken))
        == UserInfo(Some(Text(user.id)), Text(user.displayName), Text(user.email), TextList(FilterRoles(user.roles)))
  {
    CodeGrantIssuesFor(s, env, code);
    var r := AuthorizationCodeGrant(s, env, Some(code));
    IssuedAccessTokenShowsProfile(r.state, env, later, s.users[s.codes[code]]);
  }

  /** Two tokens with a common prefix are equal only when their suffixes are. */
  lemma PrefixCancels(prefix: string, a: string, b: string)
    ensures prefix + a == prefix + b ==> a == b
  {
    if prefix + a == prefix + b {
      assert a == (prefix + a)[|prefix|..];
      assert b == (prefix + b)[|prefix|..];
    }
  }

  /**
   The refresh token a code grant answers is usable: presented to
   `/oauth/token` with a fresh uuid before its expiry, it is granted, it is
   rotated out of the ledger, and a different refresh token is answered.
   */
  lemma CodeGrantThenRefresh(s: AuthState, env: Env, later: Env, code: string, other: Option<string>)
    requires UsersKeyedById(s.users)
    requires later.config == env.config && later.uuid != env.uuid
    requires later.now <= RefreshExpiry(env.config, env.now)
    requires AuthorizationCodeGrant(s, env, Some(code)).outcome.Granted?
    ensures var r := AuthorizationCodeGrant(s, env, Some(code));
      var minted := r.outcome.tokens.refreshToken;
      var next := TokenEndpoint(r.state, later, RefreshRequest(minted, other));
      && next.outcome.Granted?
      && next.outcome.tokens.refreshToken != minted
      && minted !in next.state.ledger
      && next.outcome.tokens.refreshToken in next.state.ledger
  {
    var r := AuthorizationCodeGrant(s, env, Some(code));
    var minted := r.outcome.tokens.refreshToken;
    assert r.state.ledger[minted].userId == s.codes[code];
    PrefixCancels(RefreshTokenPrefix, later.uuid, env.uuid);
  }

  /** From the seeded stores, redeeming `demo-code` grants Bearer tokens with the OpenID scope set. */
  lemma DemoCodeGrantsBearer(env: Env)
    ensures var r := AuthorizationCodeGrant(InitialAuthState(), env, Some("demo-code"));
      && r.outcome.Granted?
      && r.outcome.tokens.tokenType == "Bearer"
      && r.outcome.tokens.scope == "openid profile email offline_access"
  {
  }

  /**
   From the seeded stores and with a non-empty configured audience,
   presenting the access token `demo-code` grants at `/userinfo` before it
   expires yields the demo user's subject, name, email and roles.
   */
  lemma DemoCodeThenUserInfo(env: Env, later: Env)
    requires RoundTrips(env.codec) && CompactTokens(env.codec)
    requires later.codec == env.codec && later.config == env.config && env.config.audience != ""
    requires EpochSeconds(later.now) < EpochSeconds(env.now) + env.config.accessTokenTtlSeconds
    ensures var r := AuthorizationCodeGrant(InitialAuthState(), env, Some("demo-code"));
      && r.outcome.Granted?
      && UserInfoEndpoint(r.state, later, Some("Bearer " + r.outcome.tokens.accessToken))
         == UserInfo(Some(Text("demo-user")), Text("Demo User"), Text("demo.user@example.com"),
                     TextList(["employee", "manager"]))
  {
    var s := InitialAuthState();
    assert s.codes["demo-code"] == "demo-user" && s.users["demo-user"] == DemoUser;
    CodeGrantThenUserInfo(s, env, later, "demo-code");
    DemoRolesKept();
  }

  /** When the presented token verifies, each profile field of `/userinfo` is the payload's own claim where it has one. */
  lemma UserInfoFromPayload(s: AuthState, env: Env, header: string, payload: Claims)
    requires header != ""
    requires VerifyAccessToken(env.codec, StripBearer(header), env.config.issuer, env.config.signingKey,
                               Some(env.config.audience), env.now) == Some(payload)
    requires Get(payload, "name").Some? && Get(payload, "name").value != Null
    requires Get(payload, "email").Some? && Get(payload, "email").value != Null
    requires Get(payload, RolesClaim).Some? && Get(payload, RolesClaim).value != Null
    ensures UserInfoEndpoint(s, env, Some(header))
      == UserInfo(Get(payload, SubjectClaim), Get(payload, "name").value, Get(payload, "email").value,
                  Get(payload, RolesClaim).value)
  {
  }

  /** A claim the payload leaves out or sets to null. */
  predicate Lacks(payload: Claims, claim: string) {
    Get(payload, claim).None? || Get(payload, claim) == Some(Null)
  }

  /**
   When the presented token verifies but lacks a profile claim, `/userinfo`
   fills it in from the user its string `sub` names, and otherwise answers
   the placeholder: "Unknown User", "unknown@example.com", no roles.
   */
  lemma UserInfoFallsBack(s: AuthState, env: Env, header: string, payload: Claims)
    requires header != ""
    requires VerifyAccessToken(env.codec, StripBearer(header), env.config.issuer, env.config.signingKey,
                               Some(env.config.audience), env.now) == Some(payload)
    ensures var r := UserInfoEndpoint(s, env, Some(header));
      var known := SubjectClaim in payload && payload[SubjectClaim].Text? && payload[SubjectClaim].text in s.users;
      && r.UserInfo?
      && (Lacks(payload, "name") && known ==> r.name == Text(s.users[payload[SubjectClaim].text].displayName))
      && (Lacks(payload, "name") && !known ==> r.name == Text("Unknown User"))
      && (Lacks(payload, "email") && known ==> r.email == Text(s.users[payload[SubjectClaim].text].email))
      && (Lacks(payload, "email") && !known ==> r.email == Text("unknown@example.com"))
      && (Lacks(payload, RolesClaim) && known ==> r.roles == TextList(s.users[payload[SubjectClaim].text].roles))
      && (Lacks(payload, RolesClaim) && !known ==> r.roles == TextList([]))
  {
  }

  /**
   With a non-empty configured audience, a successful refresh of a token
   recorded for that audience yields an access token that, presented at
   `/userinfo` before it expires, shows the profile of the ledger record's
   user.
   */
  lemma RefreshGrantThenUserInfo(s: AuthState, env: Env, later: Env, token: string)
    requires RoundTrips(env.codec) && CompactTokens(env.codec)
    requires later.codec == env.codec && later.config == env.config && env.config.audience != ""
    requires EpochSeconds(later.now) < EpochSeconds(env.now) + env.config.accessTokenTtlSeconds
    requires RefreshTokenGrant(s, env, Some(token)).outcome.Granted?
    requires s.ledger[token].audience == env.config.audience
    ensures var r := RefreshTokenGrant(s, env, Some(token));
      var user := s.users[s.ledger[token].userId];
      UserInfoEndpoint(r.state, later, Some("Bearer " + r.outcome.tokens.accessToken))
        == UserInfo(Some(Text(user.id)), Text(user.displayName), Text(user.email), TextList(FilterRoles(user.roles)))
  {
    var r := RefreshTokenGrant(s, env, Some(token));
    IssuedAccessTokenShowsProfile(r.state, env, later, s.users[s.ledger[token].userId]);
  }

  /** Revoking a freshly issued refresh token makes the next refresh grant with it fail with `invalid_grant`. */
  lemma RevokeFreshTokenThenRefresh(env: Env, revokeAt: int, later: Env)
    ensures var issued := AuthorizationCodeGrant(InitialAuthState(), env, Some("demo-code"));
      var token := issued.outcome.tokens.refreshToken;
      var revoked := Revoke(issued.state, revokeAt, Some(token));
      && revoked.outcome == Revoked
      && RefreshTokenGrant(revoked.state, later, Some(token)).outcome == InvalidGrant(RefreshTokenRevoked)
  {
  }
}

=== FILE: auth_service.dfy ===
/**
 The authorization service's in-memory bookkeeping: the single-use
 authorization-code map, the refresh-token ledger with rotation,
 revocation, the custom-role registry, and the `/userinfo` claim lookup.

 Each endpoint is a pure function from the stores, the environment (clock,
 configuration, the UUID `randomUUID` would return, the signing library) and
 the parsed request body to the new stores and the response.
 */
module AuthService {
  import opened Base
  import opened Roles
  import opened Jwt
  import opened Bearer

  datatype UserRecord = UserRecord(id: string, username: string, email: string, displayName: string, roles: seq<string>)

  /** A refresh-token ledger entry; times are milliseconds since the epoch. */
  datatype RefreshRecord = RefreshRecord(token: string, userId: string, audience: string, expiresAt: int, revokedAt: Option<int>)

  /** A role as `/rbac/roles` lists it; registered custom roles are stored in this shape. */
  datatype RoleEntry = RoleEntry(key: string, displayName: string, description: Option<string>)

  /** The four process-wide stores; custom roles keep their registration order. */
  datatype AuthState = AuthState(
    codes: map<string, string>,
    users: map<string, UserRecord>,
    ledger: map<string, RefreshRecord>,
    customRoles: seq<RoleEntry>)

  datatype AuthConfig = AuthConfig(issuer: string, audience: string, accessTokenTtlSeconds: nat, signingKey: string)

  /** What a request sees from outside: configuration, signing library, clock (milliseconds), next UUID. */
  datatype Env = Env(config: AuthConfig, codec: Codec, now: int, uuid: string)

  /** The stores after a request, and its response. */
  datatype Step<O> = Step(state: AuthState, outcome: O)

  const BearerTokenType := "Bearer"
  const GrantedScope := "openid profile email offline_access"
  const RefreshTokenPrefix := "rt_"
  const AuthorizationCodeGrantType := "authorization_code"
  const RefreshTokenGrantType := "refresh_token"

  const CodeRequired := "code is required"
  const CodeNotFound := "code not found or expired"
  const UserNotFound := "user not found"
  const RefreshTokenRequired := "refresh_token is required"
  const RefreshTokenNotFound := "refresh token not found"
  const RefreshTokenRevoked := "refresh token revoked"
  const RefreshTokenExpired := "refresh token expired"

  /** A refresh token lives ten access-token lifetimes, in milliseconds. */
  function RefreshExpiry(config: AuthConfig, now: int): int {
    now + config.accessTokenTtlSeconds * 10 * 1000
  }

  /** Every ledger entry is stored under its own token. */
  ghost predicate LedgerWellFormed(ledger: map<string, RefreshRecord>) {
    forall t :: t in ledger ==> ledger[t].token == t
  }

  /** Every user is stored under its own id. */
  ghost predicate UsersKeyedById(users: map<string, UserRecord>) {
    forall id :: id in users ==> users[id].id == id
  }

  // ---------------------------------------------------------------------------
  // Token issuance

  /** The successful body of `/oauth/token`. */
  datatype TokenSet = TokenSet(tokenType: string, accessToken: string, expiresIn: nat, refreshToken: string, scope: string)

  /** What `issueTokensForUser` passes to `issueAccessToken`. */
  function AccessTokenParams(config: AuthConfig, user: UserRecord, audience: string): IssueParams {
    IssueParams(
      user.id, Some(audience), user.roles,
      map["email" := Text(user.email), "name" := Text(user.displayName)],
      config.accessTokenTtlSeconds, config.issuer, config.signingKey)
  }

  /**
   `issueTokensForUser`: sign an access token for `user` and record a new
   refresh token `rt_<uuid>` for the same user and audience.
   */
  function IssueTokensForUser(s: AuthState, env: Env, user: UserRecord, audience: string): (r: Step<TokenSet>)
    ensures r.outcome.tokenType == BearerTokenType && r.outcome.scope == GrantedScope
    ensures r.outcome.accessToken == IssueAccessToken(env.codec, AccessTokenParams(env.config, user, audience), env.now)
    ensures r.outcome.expiresIn == env.config.accessTokenTtlSeconds
    ensures r.outcome.refreshToken == RefreshTokenPrefix + env.uuid
    ensures r.outcome.refreshToken in r.state.ledger
    ensures r.state.ledger[r.outcome.refreshToken]
            == RefreshRecord(r.outcome.refreshToken, user.id, audience, RefreshExpiry(env.config, env.now), None)
    ensures r.state.ledger.Keys == s.ledger.Keys + {r.outcome.refreshToken}
    ensures forall t :: t in s.ledger && t != r.outcome.refreshToken ==> r.state.ledger[t] == s.ledger[t]
    ensures r.state.codes == s.codes && r.state.users == s.users && r.state.customRoles == s.customRoles
  {
    var accessToken := IssueAccessToken(env.codec, AccessTokenParams(env.config, user, audience), env.now);
    var refreshToken := RefreshTokenPrefix + env.uuid;
    var record := RefreshRecord(refreshToken, user.id, audience, RefreshExpiry(env.config, env.now), None);
    Step(s.(ledger := s.ledger[refreshToken := record]),
         TokenSet(BearerTokenType, accessToken, env.config.accessTokenTtlSeconds, refreshToken, GrantedScope))
  }

  // ---------------------------------------------------------------------------
  // `/oauth/token`

  /** The fields of a token request body the handler reads. */
  datatype TokenRequest = TokenRequest(grantType: Option<string>, code: Option<string>, refreshToken: Option<string>)

  datatype TokenOutcome =
    | Granted(tokens: TokenSet)
      /** 400 `invalid_request` carrying the schema's error report. */
    | SchemaRejected
    | InvalidRequest(description: string)
    | InvalidGrant(description: string)

  /** The authorization-code grant (section 4.1.3 of RFC 6749) over the single-use code map. */
  function AuthorizationCodeGrant(s: AuthState, env: Env, code: Option<string>): (r: Step<TokenOutcome>)
    ensures !r.outcome.Granted? ==> r.state == s
    ensures code.None? || code == Some("") ==> r.outcome == InvalidRequest(CodeRequired)
    ensures code.Some? && code.value != "" && (code.value !in s.codes || s.codes[code.value] == "") ==>
      r.outcome == InvalidGrant(CodeNotFound)
    ensures code.Some? && code.value != "" && code.value in s.codes && s.codes[code.value] != ""
            && s.codes[code.value] !in s.users ==>
      r.outcome == InvalidGrant(UserNotFound)
    ensures r.outcome.Granted? <==>
      code.Some? && code.value != "" && code.value in s.codes && s.codes[code.value] != "" && s.codes[code.value] in s.users
    ensures r.outcome.Granted? ==>
      && r.state.codes == s.codes - {code.value}
      && r.state.users == s.users && r.state.customRoles == s.customRoles
      && r.outcome.tokens.refreshToken in r.state.ledger
      && r.state.ledger[r.outcome.tokens.refreshToken].userId == s.users[s.codes[code.value]].id
      && r.state.ledger[r.outcome.tokens.refreshToken].audience == env.config.audience
      && r.state.ledger.Keys == s.ledger.Keys + {r.outcome.tokens.refreshToken}
      && (forall t :: t in s.ledger && t != r.outcome.tokens.refreshToken ==> r.state.ledger[t] == s.ledger[t])
    ensures r.outcome.Granted? && UsersKeyedById(s.users) ==>
      r.state.ledger[r.outcome.tokens.refreshToken].userId == s.codes[code.value]
    ensures r.outcome.Granted? ==>
      && r.outcome.tokens.expiresIn == env.config.accessTokenTtlSeconds
      && r.outcome.tokens.refreshToken == RefreshTokenPrefix + env.uuid
      && r.state.ledger[r.outcome.tokens.refreshToken]
         == RefreshRecord(r.outcome.tokens.refreshToken, s.users[s.codes[code.value]].id, env.config.audience,
                          RefreshExpiry(env.config, env.now), None)
  {
    if code.None? || code.value == "" then Step(s, InvalidRequest(CodeRequired))
    else if code.value !in s.codes || s.codes[code.value] == "" then Step(s, InvalidGrant(CodeNotFound))
    else if s.codes[code.value] !in s.users then Step(s, InvalidGrant(UserNotFound))
    else
      var user := s.users[s.codes[code.value]];
      var issued := IssueTokensForUser(s.(codes := s.codes - {code.value}), env, user, env.config.audience);
      Step(issued.state, Granted(issued.outcome))
  }

  /** The refresh-token grant (section 6 of RFC 6749), rotating the presented token. */
  function RefreshTokenGrant(s: AuthState, env: Env, token: Option<string>): (r: Step<TokenOutcome>)
    ensures token.None? || token == Some("") ==> r == Step(s, InvalidRequest(RefreshTokenRequired))
    ensures token.Some? && token.value != "" && token.value !in s.ledger ==>
      r == Step(s, InvalidGrant(RefreshTokenNotFound))
    ensures token.Some? && token.value != "" && token.value in s.ledger && s.ledger[token.value].revokedAt.Some? ==>
      r == Step(s, InvalidGrant(RefreshTokenRevoked))
    ensures token.Some? && token.value != "" && token.value in s.ledger && s.ledger[token.value].revokedAt.None?
            && s.ledger[token.value].expiresAt < env.now ==>
      r == Step(s.(ledger := s.ledger - {token.value}), InvalidGrant(RefreshTokenExpired))
    ensures token.Some? && token.value != "" && token.value in s.ledger && s.ledger[token.value].revokedAt.None?
            && env.now <= s.ledger[token.value].expiresAt && s.ledger[token.value].userId !in s.users ==>
      r == Step(s, InvalidGrant(UserNotFound))
    ensures r.outcome.Granted? ==>
      && token.Some? && token.value in s.ledger
      && token.value !in r.state.ledger
      && r.state.codes == s.codes && r.state.users == s.users && r.state.customRoles == s.customRoles
      && s.ledger[token.value].userId in s.users
      && r.outcome.tokens.accessToken
         == IssueAccessToken(env.codec, AccessTokenParams(env.config, s.users[s.ledger[token.value].userId],
                                                          s.ledger[token.value].audience), env.now)
  {
    if token.None? || token.value == "" then Step(s, InvalidRequest(RefreshTokenRequired))
    else if token.value !in s.ledger then Step(s, InvalidGrant(RefreshTokenNotFound))
    else
      var existing := s.ledger[token.value];
      if existing.revokedAt.Some? then Step(s, InvalidGrant(RefreshTokenRevoked))
      else if existing.expiresAt < env.now then
        Step(s.(ledger := s.ledger - {token.value}), InvalidGrant(RefreshTokenExpired))
      else if existing.userId !in s.users then Step(s, InvalidGrant(UserNotFound))
      else
        var issued := IssueTokensForUser(s, env, s.users[existing.userId], existing.audience);
        Step(issued.state.(ledger := issued.state.ledger - {token.value}), Granted(issued.outcome))
  }

  /** `POST /oauth/token`: the schema admits exactly the two grant types, then the grant runs. */
  function TokenEndpoint(s: AuthState, env: Env, request: TokenRequest): (r: Step<TokenOutcome>)
    ensures r.outcome == SchemaRejected <==>
      request.grantType != Some(AuthorizationCodeGrantType) && request.grantType != Some(RefreshTokenGrantType)
    ensures r.outcome == SchemaRejected ==> r.state == s
    ensures request.grantType == Some(AuthorizationCodeGrantType) ==> r == AuthorizationCodeGrant(s, env, request.code)
    ensures request.grantType == Some(RefreshTokenGrantType) ==> r == RefreshTokenGrant(s, env, request.refreshToken)
  {
    if request.grantType == Some(AuthorizationCodeGrantType) then AuthorizationCodeGrant(s, env, request.code)
    else if request.grantType == Some(RefreshTokenGrantType) then RefreshTokenGrant(s, env, request.refreshToken)
    else Step(s, SchemaRejected)
  }

  // ---------------------------------------------------------------------------
  // `/oauth/revoke`

  datatype RevokeOutcome = Revoked | Ignored | RevokeSchemaRejected

  /**
   `POST /oauth/revoke`: mark a known refresh token revoked at `now`; an
   unknown token is answered "ignored" (section 2.2 of RFC 7009).
   */
  function Revoke(s: AuthState, now: int, token: Option<string>): (r: Step<RevokeOutcome>)
    ensures token.None? ==> r == Step(s, RevokeSchemaRejected)
    ensures token.Some? && token.value !in s.ledger ==> r == Step(s, Ignored)
    ensures LedgerWellFormed(s.ledger) && token.Some? && token.value in s.ledger ==>
      && r.outcome == Revoked
      && r.state == s.(ledger := s.ledger[token.value := s.ledger[token.value].(revokedAt := Some(now))])
  {
    if token.None? then Step(s, RevokeSchemaRejected)
    else if token.value !in s.ledger then Step(s, Ignored)
    else
      var record := s.ledger[token.value];
      Step(s.(ledger := s.ledger[record.token := record.(revokedAt := Some(now))]), Revoked)
  }

  // ---------------------------------------------------------------------------
  // `/rbac/roles`

  /** The body of a role registration. */
  datatype RoleRegistration = RoleRegistration(key: Option<string>, displayName: Option<string>, description: Option<string>)

  datatype RegisterOutcome = RoleCreated(role: RoleEntry) | RegisterSchemaRejected | RoleConflict

  /** A character of the key pattern `[a-z0-9:_-]`. */
  predicate IsRoleKeyChar(c: char) {
    ('a' <= c <= 'z') || ('0' <= c <= '9') || c == ':' || c == '_' || c == '-'
  }

  /** The registration schema: a key of at least three pattern characters and a display name of at least three. */
  predicate RegistrationValid(reg: RoleRegistration) {
    && reg.key.Some? && Utf16Length(reg.key.value) >= 3
    && (forall i :: 0 <= i < |reg.key.value| ==> IsRoleKeyChar(reg.key.value[i]))
    && reg.displayName.Some? && Utf16Length(reg.displayName.value) >= 3
  }

  /** The keys of a sequence of role entries, in order. */
  function KeysOf(entries: seq<RoleEntry>): (keys: seq<string>)
    ensures |keys| == |entries|
    ensures forall i :: 0 <= i < |entries| ==> keys[i] == entries[i].key
  {
    seq(|entries|, i requires 0 <= i < |entries| => entries[i].key)
  }

  /** A key is taken when it is built-in or already registered. */
  predicate RoleKeyTaken(s: AuthState, key: string) {
    key in RbacRoles || key in KeysOf(s.customRoles)
  }

  /** Registered keys are pairwise distinct and none is built-in. */
  ghost predicate RegistryWellFormed(customRoles: seq<RoleEntry>) {
    && (forall i, j :: 0 <= i < j < |customRoles| ==> customRoles[i].key != customRoles[j].key)
    && (forall i :: 0 <= i < |customRoles| ==> !IsRbacRole(customRoles[i].key))
  }

  /** `POST /rbac/roles`: add a custom role at the end of the registry unless its key is taken. */
  function RegisterRole(s: AuthState, reg: RoleRegistration): (r: Step<RegisterOutcome>)
    ensures !RegistrationValid(reg) ==> r == Step(s, RegisterSchemaRejected)
    ensures RegistrationValid(reg) && RoleKeyTaken(s, reg.key.value) ==> r == Step(s, RoleConflict)
    ensures RegistrationValid(reg) && !RoleKeyTaken(s, reg.key.value) ==>
      var role := RoleEntry(reg.key.value, reg.displayName.value, reg.description);
      r == Step(s.(customRoles := s.customRoles + [role]), RoleCreated(role))
    ensures RegistryWellFormed(s.customRoles) ==> RegistryWellFormed(r.state.customRoles)
  {
    if !RegistrationValid(reg) then Step(s, RegisterSchemaRejected)
    else if RoleKeyTaken(s, reg.key.value) then Step(s, RoleConflict)
    else
      var role := RoleEntry(reg.key.value, reg.displayName.value, reg.description);
      Step(s.(customRoles := s.customRoles + [role]), RoleCreated(role))
  }

  /** A built-in role as `/rbac/roles` lists it. */
  function BuiltinEntry(role: string): RoleEntry
    requires IsRbacRole(role)
  {
    RoleEntry(role, role, Some(DescriptionOf(role)))
  }

  /** The built-in roles as listed, in declaration order. */
  function BuiltinEntries(): (entries: seq<RoleEntry>)
    ensures |entries| == |RbacRoles|
    ensures forall i :: 0 <= i < |entries| ==> entries[i] == BuiltinEntry(RbacRoles[i])
  {
    seq(|RbacRoles|, i requires 0 <= i < |RbacRoles| => BuiltinEntry(RbacRoles[i]))
  }

  /** `GET /rbac/roles`: the built-in roles in declaration order, then the custom roles in registration order. */
  function ListRoles(s: AuthState): (roles: seq<RoleEntry>)
    ensures |roles| == |RbacRoles| + |s.customRoles|
    ensures forall i :: 0 <= i < |RbacRoles| ==> roles[i] == BuiltinEntry(RbacRoles[i])
    ensures forall i :: 0 <= i < |s.customRoles| ==> roles[|RbacRoles| + i] == s.customRoles[i]
  {
    BuiltinEntries() + s.customRoles
  }

  // ---------------------------------------------------------------------------
  // `/userinfo`

  datatype UserInfoOutcome =
    | Unauthorized
    | InvalidToken
    | UserInfo(sub: Option<ClaimValue>, name: ClaimValue, email: ClaimValue, roles: ClaimValue)

  /** The placeholders `/userinfo` answers when neither the token nor a stored user supplies the field. */
  const UnknownUserName := "Unknown User"
  const UnknownUserEmail := "unknown@example.com"

  /** `first ?? second ?? last`: the first value that is neither absent nor null. */
  function Coalesce(first: Option<ClaimValue>, second: Option<ClaimValue>, last: ClaimValue): (v: ClaimValue)
    ensures first.Some? && first.value != Null ==> v == first.value
    ensures (first.None? || first.value == Null) && second.Some? && second.value != Null ==> v == second.value
    ensures (first.None? || first.value == Null) && (second.None? || second.value == Null) ==> v == last
    ensures last != Null ==> v != Null
  {
    if first.Some? && first.value != Null then first.value
    else if second.Some? && second.value != Null then second.value
    else last
  }

  /** The user named by a string `sub` claim, when there is one. */
  function SubjectUser(users: map<string, UserRecord>, payload: Claims): (user: Option<UserRecord>)
    ensures user.Some? <==> SubjectClaim in payload && payload[SubjectClaim].Text? && payload[SubjectClaim].text in users
    ensures user.Some? ==> users[payload[SubjectClaim].text] == user.value
  {
    if SubjectClaim in payload && payload[SubjectClaim].Text? then Get(users, payload[SubjectClaim].text) else None
  }

  /**
   `GET /userinfo`: verify the bearer token against the configured issuer,
   key and audience; each profile claim falls back to the stored user, then
   to a fixed placeholder.
   */
  function UserInfoEndpoint(s: AuthState, env: Env, authorization: Option<string>): (r: UserInfoOutcome)
    ensures r == Unauthorized <==> authorization.None? || authorization.value == ""
    ensures r == InvalidToken <==>
      && authorization.Some? && authorization.value != ""
      && VerifyAccessToken(env.codec, StripBearer(authorization.value), env.config.issuer, env.config.signingKey,
                           Some(env.config.audience), env.now).None?
    ensures r.UserInfo? ==>
      var payload := VerifyAccessToken(env.codec, StripBearer(authorization.value), env.config.issuer,
                                       env.config.signingKey, Some(env.config.audience), env.now);
      && payload.Some?
      && r.sub == Get(payload.value, SubjectClaim)
      && r.name != Null && r.email != Null && r.roles != Null
      && var user := SubjectUser(s.users, payload.value);
         && r.name == Coalesce(Get(payload.value, "name"), if user.Some? then Some(Text(user.value.displayName)) else None,
                               Text(UnknownUserName))
         && r.email == Coalesce(Get(payload.value, "email"), if user.Some? then Some(Text(user.value.email)) else None,
                                Text(UnknownUserEmail))
         && r.roles == Coalesce(Get(payload.value, RolesClaim), if user.Some? then Some(TextList(user.value.roles)) else None,
                                TextList([]))
  {
    if authorization.None? || authorization.value == "" then Unauthorized
    else
      var token := StripBearer(authorization.value);
      var config := env.config;
      match VerifyAccessToken(env.codec, token, config.issuer, config.signingKey, Some(config.audience), env.now)
      case None => InvalidToken
      case Some(payload) =>
        var user := SubjectUser(s.users, payload);
        UserInfo(
          Get(payload, SubjectClaim),
          Coalesce(Get(payload, "name"), if user.Some? then Some(Text(user.value.displayName)) else None,
                   Text(UnknownUserName)),
          Coalesce(Get(payload, "email"), if user.Some? then Some(Text(user.value.email)) else None,
                   Text(UnknownUserEmail)),
          Coalesce(Get(payload, RolesClaim), if user.Some? then Some(TextList(user.value.roles)) else None,
                   TextList([])))
  }

  // ---------------------------------------------------------------------------
  // `resetAuthState`

  const DemoUser := UserRecord("demo-user", "demo", "demo.user@example.com", "Demo User", ["employee", "manager"])

  /** The seeded stores: the demo code for the demo user, no refresh tokens, no custom roles. */
  function InitialAuthState(): (s: AuthState)
    ensures LedgerWellFormed(s.ledger) && RegistryWellFormed(s.customRoles) && UsersKeyedById(s.users)
    ensures Get(s.codes, "demo-code") == Some("demo-user") && Get(s.users, "demo-user") == Some(DemoUser)
    ensures s.codes == map["demo-code" := "demo-user"] && s.users.Keys == {"demo-user"}
    ensures s.ledger == map[] && s.customRoles == []
  {
    AuthState(map["demo-code" := "demo-user"], map["demo-user" := DemoUser], map[], [])
  }
}

=== FILE: base.dfy ===
/**
 Shared vocabulary of both services: optional values (JavaScript's `undefined`)
 and the two facts about JavaScript strings the handlers depend on — what
 `length` counts and what the regular-expression class `\s` matches.
 */
module Base {

  /** A value that may be absent, as an optional property of a request body. */
  datatype Option<+T> = None | Some(value: T) {

    /** The value, or `default` when absent (JavaScript's `??` on a non-null value). */
    function GetOr(default: T): T {
      match this
      case Some(v) => v
      case None => default
    }

    /** This value when present, otherwise `other`. */
    function OrElse(other: Option<T>): Option<T> {
      if Some? then this else other
    }
  }

  /** Look `key` up in `m`, as `Map.prototype.get` does. */
  function Get<K, V>(m: map<K, V>, key: K): (r: Option<V>)
    ensures r.Some? <==> key in m
    ensures r.Some? ==> r.value == m[key]
  {
    if key in m then Some(m[key]) else None
  }

  /** True when `c` lies outside the Basic Multilingual Plane, so UTF-16 needs a surrogate pair for it. */
  predicate IsAstral(c: char) {
    c as int > 0xFFFF
  }

  /**
   The number of UTF-16 code units of `s`: what JavaScript's `length`, and
   so zod's `min` and `max` string checks, count.
   */
  function Utf16Length(s: string): (n: nat)
    ensures |s| <= n <= 2 * |s|
    ensures n == 0 <==> s == ""
  {
    if |s| == 0 then 0
    else (if IsAstral(s[0]) then 2 else 1) + Utf16Length(s[1..])
  }

  /** On text without astral characters, the UTF-16 length is the character count. */
  lemma {:induction false} Utf16LengthOfBmp(s: string)
    requires forall i :: 0 <= i < |s| ==> !IsAstral(s[i])
    ensures Utf16Length(s) == |s|
  {
    if |s| > 0 {
      Utf16LengthOfBmp(s[1..]);
    }
  }

  /**
   The characters ECMAScript's `\s` matches: the WhiteSpace and
   LineTerminator productions (tab, vertical tab, form feed, space,
   no-break space, byte-order mark, the space separators of category Zs,
   line feed, carriage return, line and paragraph separators).
   */
  predicate IsJsSpace(c: char) {
    || c == '\t' || c == '\n' || c == '\U{000B}' || c == '\U{000C}' || c == '\r' || c == ' '
    || c == '\U{00A0}' || c == '\U{1680}' || ('\U{2000}' <= c <= '\U{200A}')
    || c == '\U{2028}' || c == '\U{2029}' || c == '\U{202F}' || c == '\U{205F}'
    || c == '\U{3000}' || c == '\U{FEFF}'
  }

  /** True when `s` begins with a `\s` character. */
  predicate StartsWithSpace(s: string) {
    |s| > 0 && IsJsSpace(s[0])
  }
}

=== FILE: bearer.dfy ===
/**
 The `Authorization` header handling of `/userinfo`: the scheme word
 `Bearer` (any letter case) and the whitespace after it are removed, as
 `replace(/^Bearer\s+/i, '')` does; any other header is used unchanged.
 */
module Bearer {
  import opened Base

  /** The scheme word, lower-cased. */
  const Scheme := "bearer"

  /** ASCII lower-casing: the case folding the `i` flag applies to the letters of `Bearer`. */
  function LowerAscii(c: char): (d: char)
    ensures 'A' <= c <= 'Z' ==> d as int == c as int + 32
    ensures !('A' <= c <= 'Z') ==> d == c
    ensures ('a' <= d <= 'z') <==> ('a' <= c <= 'z' || 'A' <= c <= 'Z')
    ensures 'a' <= d <= 'z' ==> c == d || c as int == d as int - 32
  {
    if 'A' <= c <= 'Z' then (c as int + 32) as char else c
  }

  /** `^Bearer\s` matches: the scheme word in any case, then at least one `\s` character. */
  predicate HasSchemePrefix(header: string) {
    && |header| > |Scheme|
    && (forall i :: 0 <= i < |Scheme| ==> LowerAscii(header[i]) == Scheme[i])
    && IsJsSpace(header[|Scheme|])
  }

  /** Drop the leading run of `\s` characters, as the greedy `\s+` does. */
  function SkipSpaces(s: string): (rest: string)
    ensures |rest| <= |s| && rest == s[|s| - |rest|..]
    ensures forall i :: 0 <= i < |s| - |rest| ==> IsJsSpace(s[i])
    ensures !StartsWithSpace(rest)
  {
    if StartsWithSpace(s) then SkipSpaces(s[1..]) else s
  }

  /**
   The token presented in an `Authorization` header: the header with the
   matched `Bearer` prefix and all the whitespace after it removed, or the
   whole header when the prefix does not match.
   */
  function StripBearer(header: string): (token: string)
    ensures !HasSchemePrefix(header) ==> token == header
    ensures HasSchemePrefix(header) ==>
      && |token| < |header| - |Scheme|
      && token == header[|header| - |token|..]
      && (forall i :: |Scheme| <= i < |header| - |token| ==> IsJsSpace(header[i]))
      && !StartsWithSpace(token)
  {
    if HasSchemePrefix(header) then SkipSpaces(header[|Scheme|..]) else header
  }

  /** A header built as `Bearer <token>` yields the token back, when the token does not begin with whitespace. */
  lemma StripBearerOfIssuedHeader(token: string)
    requires !StartsWithSpace(token)
    ensures StripBearer("Bearer " + token) == token
  {
  }
}

=== FILE: employee_properties.dfy ===
/**
 Properties of the employee directory: what create and update keep true of
 the store (every record keyed by its id and passing the response schema,
 emails unique unless duplicates are allowed), the create/read and
 update/read round trips, the email rule, and the algebra of partial
 updates.
 */
module EmployeeProperties {
  import opened Base
  import opened EmployeeSchema
  import opened EmployeeService

  /**
   The invariant of the employee store: records keyed by id and valid for
   the response schema, and, when duplicates are not allowed, no two
   records sharing an email.
   */
  ghost predicate EmployeeInvariant(store: map<string, EmployeeRecord>, allowDuplicateEmail: bool, formats: Formats) {
    StoreValid(store, formats) && (!allowDuplicateEmail ==> EmailsUnique(store))
  }

  /** What the platform supplies to a request: a non-empty UUID and a date-time timestamp. */
  predicate EnvWellFormed(env: Env) {
    NonEmpty(env.uuid) && env.formats.isDateTime(env.now)
  }

  /** A record created from a valid body, with a non-empty id and a date-time stamp, passes the response schema. */
  lemma CreatedRecordResponseValid(body: EmployeeDraft, id: string, timestamp: string, formats: Formats)
    requires CreateValid(body, formats) && NonEmpty(id) && formats.isDateTime(timestamp)
    ensures ResponseValid(CreateRecord(body, id, timestamp), formats)
  {
  }

  /** Overlaying fields that each meet their rule onto a valid create body gives a valid create body. */
  lemma OverlayKeepsCreateValid(base: EmployeeDraft, patch: EmployeeDraft, formats: Formats)
    requires CreateValid(base, formats) && FieldsValid(patch, formats)
    ensures CreateValid(Overlay(base, patch), formats)
  {
  }

  /** Updating a valid record with a valid patch at a date-time stamp gives a valid record. */
  lemma UpdatePreservesResponseValid(existing: EmployeeRecord, patch: EmployeeDraft, timestamp: string, formats: Formats)
    requires ResponseValid(existing, formats) && FieldsValid(patch, formats) && formats.isDateTime(timestamp)
    ensures ResponseValid(ApplyUpdate(existing, patch, timestamp), formats)
  {
  }

  /**
   Creating keeps the invariant, and with a well-formed environment the
   response is never a server error. A colliding UUID overwrites the record
   it collides with, which keeps the invariant too.
   */
  lemma PostKeepsInvariant(s: EmployeeState, env: Env, body: EmployeeDraft)
    requires EmployeeInvariant(s.employees, env.allowDuplicateEmail, env.formats) && EnvWellFormed(env)
    ensures var r := PostEmployee(s, env, body);
      && EmployeeInvariant(r.state.employees, env.allowDuplicateEmail, env.formats)
      && (r.outcome == InvalidRequest || r.outcome == Conflict || r.outcome.Created?)
  {
    var r := PostEmployee(s, env, body);
    if r.outcome != InvalidRequest && r.outcome != Conflict {
      var record := CreateRecord(body, env.uuid, env.now);
      CreatedRecordResponseValid(body, env.uuid, env.now, env.formats);
      ReplaceKeepsStoreValid(s.employees, record, env.formats);
      if !env.allowDuplicateEmail {
        assert EmailAvailable(s.employees, false, record.email, None);
        forall k | k in s.employees && k != env.uuid
          ensures s.employees[k].email != record.email
        {
          assert s.employees[k] in s.employees.Values;
        }
        ReplaceKeepsEmailsUnique(s.employees, env.uuid, record);
      }
    }
  }

  /**
   Updating keeps the invariant, and with a well-formed environment the
   response is never a server error. Email uniqueness relies on the email
   format rejecting the empty string, since an empty email skips the
   uniqueness check.
   */
  lemma PatchKeepsInvariant(s: EmployeeState, env: Env, id: string, body: EmployeeDraft)
    requires EmployeeInvariant(s.employees, env.allowDuplicateEmail, env.formats) && EnvWellFormed(env)
    requires RejectsEmptyEmail(env.formats)
    ensures var r := PatchEmployee(s, env, id, body);
      && EmployeeInvariant(r.state.employees, env.allowDuplicateEmail, env.formats)
      && r.outcome != ServerError
  {
    var r := PatchEmployee(s, env, id, body);
    if id in s.employees && UpdateValid(body, env.formats) && r.outcome != Conflict {
      var updated := ApplyUpdate(s.employees[id], body, env.now);
      UpdatePreservesResponseValid(s.employees[id], body, env.now, env.formats);
      ReplaceKeepsStoreValid(s.employees, updated, env.formats);
      if !env.allowDuplicateEmail {
        PatchedEmailIsFree(s.employees, env, id, body);
        ReplaceKeepsEmailsUnique(s.employees, id, updated);
      }
    }
  }

  /** Storing a valid record under its own id keeps the store valid. */
  lemma ReplaceKeepsStoreValid(store: map<string, EmployeeRecord>, record: EmployeeRecord, formats: Formats)
    requires StoreValid(store, formats) && ResponseValid(record, formats)
    ensures StoreValid(store[record.id := record], formats)
  {
  }

  /** Storing a record whose email no other key uses keeps emails unique. */
  lemma ReplaceKeepsEmailsUnique(store: map<string, EmployeeRecord>, key: string, record: EmployeeRecord)
    requires EmailsUnique(store)
    requires forall k :: k in store && k != key ==> store[k].email != record.email
    ensures EmailsUnique(store[key := record])
  {
  }

  /** An update that passes the email rule leaves the target with an email no other employee uses. */
  lemma PatchedEmailIsFree(store: map<string, EmployeeRecord>, env: Env, id: string, body: EmployeeDraft)
    requires KeysMatchIds(store) && EmailsUnique(store) && !env.allowDuplicateEmail && RejectsEmptyEmail(env.formats)
    requires id in store && UpdateValid(body, env.formats)
    requires body.email.Some? && body.email.value != "" ==> EmailAvailable(store, false, body.email.value, Some(id))
    ensures forall k :: k in store && k != id ==> store[k].email != ApplyUpdate(store[id], body, env.now).email
  {
    forall k | k in store && k != id
      ensures store[k].email != ApplyUpdate(store[id], body, env.now).email
    {
      if body.email.Some? {
        assert store[k] in store.Values;
      }
    }
  }

  /** A created employee can be read back under the id it was given, unchanged. */
  lemma PostThenGet(s: EmployeeState, env: Env, body: EmployeeDraft)
    requires PostEmployee(s, env, body).outcome.Created?
    ensures var r := PostEmployee(s, env, body);
      GetEmployee(r.state, env.formats, env.uuid) == Ok(r.outcome.employee)
  {
  }

  /**
   A valid body whose email is available, created under a fresh UUID in a
   well-formed environment, is answered 201 with the new record, and the
   store gains exactly that record and keeps every other.
   */
  lemma PostAddsOneRecord(s: EmployeeState, env: Env, body: EmployeeDraft)
    requires CreateValid(body, env.formats) && EmailAvailable(s.employees, env.allowDuplicateEmail, body.email.value, None)
    requires EnvWellFormed(env) && env.uuid !in s.employees
    ensures var r := PostEmployee(s, env, body);
      && r.outcome == Created(CreateRecord(body, env.uuid, env.now))
      && |r.state.employees| == |s.employees| + 1
      && r.state.employees.Keys == s.employees.Keys + {env.uuid}
      && forall id :: id in s.employees ==> r.state.employees[id] == s.employees[id]
  {
    CreatedRecordResponseValid(body, env.uuid, env.now, env.formats);
  }

  /**
   When duplicates are allowed, a valid body in a well-formed environment is
   always created, whatever emails the store holds.
   */
  lemma DuplicatesAllowedCreates(s: EmployeeState, env: Env, body: EmployeeDraft)
    requires env.allowDuplicateEmail && CreateValid(body, env.formats) && EnvWellFormed(env)
    ensures PostEmployee(s, env, body).outcome == Created(CreateRecord(body, env.uuid, env.now))
  {
    CreatedRecordResponseValid(body, env.uuid, env.now, env.formats);
  }

  /** When duplicates are not allowed, creating with an email some stored employee uses is a conflict that changes nothing. */
  lemma PostDuplicateEmailConflicts(s: EmployeeState, env: Env, body: EmployeeDraft, other: string)
    requires !env.allowDuplicateEmail && CreateValid(body, env.formats)
    requires other in s.employees && s.employees[other].email == body.email.value
    ensures PostEmployee(s, env, body) == Step(s, Conflict)
  {
    assert s.employees[other] in s.employees.Values;
  }

  /** When duplicates are allowed, neither create nor update ever answers with a conflict. */
  lemma DuplicatesAllowedNeverConflict(s: EmployeeState, env: Env, id: string, body: EmployeeDraft)
    requires env.allowDuplicateEmail
    ensures PostEmployee(s, env, body).outcome != Conflict
    ensures PatchEmployee(s, env, id, body).outcome != Conflict
  {
  }

  /** In a store that keeps the invariant, re-sending an employee's own email never conflicts. */
  lemma PatchOwnEmailNeverConflicts(s: EmployeeState, env: Env, id: string, body: EmployeeDraft)
    requires KeysMatchIds(s.employees) && EmailsUnique(s.employees)
    requires id in s.employees && body.email == Some(s.employees[id].email)
    ensures PatchEmployee(s, env, id, body).outcome != Conflict
  {
  }

  /** An update that succeeds can be read back: the stored record is the update of the old one. */
  lemma PatchThenGet(s: EmployeeState, env: Env, id: string, body: EmployeeDraft)
    requires PatchEmployee(s, env, id, body).outcome.Ok?
    ensures var r := PatchEmployee(s, env, id, body);
      && id in s.employees
      && GetEmployee(r.state, env.formats, id) == Ok(ApplyUpdate(s.employees[id], body, env.now))
      && r.outcome.employee == ApplyUpdate(s.employees[id], body, env.now)
  {
  }

  /** Applying the same patch twice at one timestamp is applying it once. */
  lemma ApplyUpdateIdempotent(existing: EmployeeRecord, patch: EmployeeDraft, timestamp: string)
    ensures var once := ApplyUpdate(existing, patch, timestamp);
      ApplyUpdate(once, patch, timestamp) == once
  {
  }

  /** Of two patches applied in turn, the later one's fields win; the result is one merged patch. */
  lemma ApplyUpdateComposes(existing: EmployeeRecord, first: EmployeeDraft, second: EmployeeDraft, t1: string, t2: string)
    ensures ApplyUpdate(ApplyUpdate(existing, first, t1), second, t2) == ApplyUpdate(existing, Overlay(first, second), t2)
  {
  }

  /** Updating a freshly created record with the body it was created from changes only the update time. */
  lemma UpdateWithCreateBody(body: EmployeeDraft, id: string, created: string, later: string)
    requires RequiredPresent(body)
    ensures ApplyUpdate(CreateRecord(body, id, created), body, later) == CreateRecord(body, id, created).(updatedAt := later)
  {
  }

  /** A record's own fields, sent back as a patch, change only the update time. */
  lemma PatchWithOwnFields(existing: EmployeeRecord, timestamp: string)
    ensures ApplyUpdate(existing, BaseFieldsOf(existing), timestamp) == existing.(updatedAt := timestamp)
  {
  }

  /** The formats accept every email and date-time string of the seed data. */
  predicate AcceptsSeed(formats: Formats) {
    && formats.isEmail(Taro.email) && formats.isEmail(Hanako.email)
    && formats.isDateTime(Taro.joinedDate.value) && formats.isDateTime(Taro.createdAt) && formats.isDateTime(Taro.updatedAt)
    && formats.isDateTime(Hanako.joinedDate.value) && formats.isDateTime(Hanako.createdAt)
    && formats.isDateTime(Hanako.updatedAt)
  }

  /** The seed data keeps the invariant, and the three listings succeed on it. */
  lemma SeedKeepsInvariant(allowDuplicateEmail: bool, formats: Formats)
    requires AcceptsSeed(formats)
    ensures var s := InitialEmployeeState();
      && EmployeeInvariant(s.employees, allowDuplicateEmail, formats)
      && ListEmployees(s, formats).Some?
      && ListDepartments(s).Some? && ListJobGrades(s).Some?
  {
    SeedStoreValid(formats);
    SeedReferenceListings();
  }

  /** The seeded employee store is keyed by id and passes the response schema. */
  lemma SeedStoreValid(formats: Formats)
    requires AcceptsSeed(formats)
    ensures StoreValid(InitialEmployeeState().employees, formats)
  {
    SeedEmployeesValid(formats);
    PairStoreValid(Taro, Hanako, formats);
  }

  /** A store of two valid records, each under its own id, is valid. */
  lemma PairStoreValid(a: EmployeeRecord, b: EmployeeRecord, formats: Formats)
    requires ResponseValid(a, formats) && ResponseValid(b, formats)
    ensures StoreValid(map[a.id := a, b.id := b], formats)
  {
  }

  /**
   The seeded departments and job grades pass their schemas, so both
   listings succeed, in seeding order: People Operations before Engineering,
   IC-3 before M-2.
   */
  lemma SeedReferenceListings()
    ensures ListDepartments(InitialEmployeeState()) == Some([PeopleOps, Engineering])
    ensures ListJobGrades(InitialEmployeeState()) == Some([Ic3, M2])
  {
    var s := InitialEmployeeState();
    assert DepartmentValid(PeopleOps) && DepartmentValid(Engineering);
    assert JobGradeValid(Ic3) && JobGradeValid(M2);
    PairsListed(s, PeopleOps, Engineering, Ic3, M2);
  }

  /** Two valid departments and two valid job grades are listed as they are stored, in order. */
  lemma PairsListed(s: EmployeeState, d1: Department, d2: Department, g1: JobGrade, g2: JobGrade)
    requires s.departments == [d1, d2] && DepartmentValid(d1) && DepartmentValid(d2)
    requires s.jobGrades == [g1, g2] && JobGradeValid(g1) && JobGradeValid(g2)
    ensures ListDepartments(s) == Some([d1, d2]) && ListJobGrades(s) == Some([g1, g2])
  {
  }

  /** Both seed employees pass the response schema. */
  lemma SeedEmployeesValid(formats: Formats)
    requires AcceptsSeed(formats)
    ensures ResponseValid(Taro, formats) && ResponseValid(Hanako, formats)
  {
    ShortRecordValid(Taro, formats);
    ShortRecordValid(Hanako, formats);
  }

  /** A record whose texts are short, non-empty where required, with a listed status and accepted formats is valid. */
  lemma ShortRecordValid(r: EmployeeRecord, formats: Formats)
    requires 1 <= |r.employeeCode| <= 32 && 1 <= |r.id| <= 32
    requires 1 <= |r.firstName| <= 32 && 1 <= |r.lastName| <= 32 && 1 <= |r.departmentId| <= 32 && 1 <= |r.title| <= 32
    requires r.managerId.Some? ==> 1 <= |r.managerId.value| <= 32
    requires IsEmployeeStatus(r.status) && formats.isEmail(r.email)
    requires r.joinedDate.Some? ==> formats.isDateTime(r.joinedDate.value)
    requires formats.isDateTime(r.createdAt) && formats.isDateTime(r.updatedAt)
    ensures ResponseValid(r, formats)
  {
  }

  /** Any request the employee service answers. */
  datatype EmployeeRequest =
    | ListCall
    | GetCall(id: string)
    | PostCall(body: EmployeeDraft)
    | PatchCall(id: string, body: EmployeeDraft)
    | DepartmentsCall
    | JobGradesCall

  /** A request together with the timestamp and the UUID it sees. */
  datatype Call = Call(now: string, uuid: string, request: EmployeeRequest)

  /** The stores after answering one request. */
  function Handle(s: EmployeeState, allowDuplicateEmail: bool, formats: Formats, call: Call): (s': EmployeeState)
    ensures s'.departments == s.departments && s'.jobGrades == s.jobGrades
    ensures s'.employees.Keys >= s.employees.Keys
  {
    var env := Env(allowDuplicateEmail, formats, call.now, call.uuid);
    match call.request
    case PostCall(body) => PostEmployee(s, env, body).state
    case PatchCall(id, body) => PatchEmployee(s, env, id, body).state
    case _ => s
  }

  /** The stores after answering `calls` in order. */
  function Run(s: EmployeeState, allowDuplicateEmail: bool, formats: Formats, calls: seq<Call>): EmployeeState
    decreases |calls|
  {
    if |calls| == 0 then s else Run(Handle(s, allowDuplicateEmail, formats, calls[0]), allowDuplicateEmail, formats, calls[1..])
  }

  /** Every call sees a non-empty UUID and a date-time timestamp. */
  predicate CallsWellFormed(calls: seq<Call>, formats: Formats) {
    forall i :: 0 <= i < |calls| ==> EnvWellFormed(Env(false, formats, calls[i].now, calls[i].uuid))
  }

  /** Every request history keeps the invariant. */
  lemma {:induction false} RunKeepsInvariant(s: EmployeeState, allowDuplicateEmail: bool, formats: Formats, calls: seq<Call>)
    requires EmployeeInvariant(s.employees, allowDuplicateEmail, formats) && RejectsEmptyEmail(formats)
    requires CallsWellFormed(calls, formats)
    ensures EmployeeInvariant(Run(s, allowDuplicateEmail, formats, calls).employees, allowDuplicateEmail, formats)
    decreases |calls|
  {
    if |calls| > 0 {
      var call := calls[0];
      var env := Env(allowDuplicateEmail, formats, call.now, call.uuid);
      assert EnvWellFormed(Env(false, formats, call.now, call.uuid));
      match call.request {
        case PostCall(body) => PostKeepsInvariant(s, env, body);
        case PatchCall(id, body) => PatchKeepsInvariant(s, env, id, body);
        case _ =>
      }
      assert forall i :: 0 <= i < |calls[1..]| ==> calls[1..][i] == calls[i + 1];
      RunKeepsInvariant(Handle(s, allowDuplicateEmail, formats, call), allowDuplicateEmail, formats, calls[1..]);
    }
  }

  /** No request history changes the departments or job grades, or removes an employee. */
  lemma {:induction false} RunKeepsReferenceData(s: EmployeeState, allowDuplicateEmail: bool, formats: Formats, calls: seq<Call>)
    ensures var after := Run(s, allowDuplicateEmail, formats, calls);
      after.departments == s.departments && after.jobGrades == s.jobGrades && after.employees.Keys >= s.employees.Keys
    decreases |calls|
  {
    if |calls| > 0 {
      RunKeepsReferenceData(Handle(s, allowDuplicateEmail, formats, calls[0]), allowDuplicateEmail, formats, calls[1..]);
    }
  }

  /** From the seed data, every request history keeps the invariant and every listing succeeds. */
  lemma SeededRunsStayValid(allowDuplicateEmail: bool, formats: Formats, calls: seq<Call>)
    requires AcceptsSeed(formats) && RejectsEmptyEmail(formats) && CallsWellFormed(calls, formats)
    ensures var s := Run(InitialEmployeeState(), allowDuplicateEmail, formats, calls);
      && EmployeeInvariant(s.employees, allowDuplicateEmail, formats)
      && ListEmployees(s, formats).Some? && ListDepartments(s).Some? && ListJobGrades(s).Some?
  {
    SeedKeepsInvariant(allowDuplicateEmail, formats);
    RunKeepsInvariant(InitialEmployeeState(), allowDuplicateEmail, formats, calls);
    RunKeepsReferenceData(InitialEmployeeState(), allowDuplicateEmail, formats, calls);
  }
}

=== FILE: employee_schema.dfy ===
/**
 The employee directory's validation rules: the fields of an employee, the
 create, update and response schemas, and the reference-data schemas for
 departments and job grades.

 The email-address and ISO 8601 date-time checks are zod's; a `Formats`
 value stands for them.
 */
module EmployeeSchema {
  import opened Base

  /** The employee status enumeration. */
  const EmployeeStatuses: seq<string> := ["active", "on_leave", "terminated", "probation"]

  predicate IsEmployeeStatus(status: string) {
    status in EmployeeStatuses
  }

  /** The status a record gets when the create body names none. */
  const DefaultStatus := "active"

  /** zod's string-format checks: email address and ISO 8601 date-time. */
  datatype Formats = Formats(isEmail: string -> bool, isDateTime: string -> bool)

  /** zod's email pattern needs at least one character before and after the `@`, so it rejects "". */
  predicate RejectsEmptyEmail(formats: Formats) {
    !formats.isEmail("")
  }

  /** The schema fields of an employee body; `None` is a field the body leaves out. */
  datatype EmployeeDraft = EmployeeDraft(
    employeeCode: Option<string>,
    firstName: Option<string>,
    lastName: Option<string>,
    email: Option<string>,
    departmentId: Option<string>,
    title: Option<string>,
    status: Option<string>,
    phone: Option<string>,
    managerId: Option<string>,
    joinedDate: Option<string>)

  /** A body with no fields at all. */
  const EmptyDraft := EmployeeDraft(None, None, None, None, None, None, None, None, None, None)

  /** zod's `min(1)`: at least one UTF-16 code unit. */
  predicate NonEmpty(s: string) {
    Utf16Length(s) >= 1
  }

  /** `employeeCode`: between 1 and 64 UTF-16 code units. */
  predicate EmployeeCodeOk(code: string) {
    1 <= Utf16Length(code) <= 64
  }

  /** `employeeBaseSchema.partial()`: every field the body carries meets its rule. */
  predicate FieldsValid(d: EmployeeDraft, formats: Formats) {
    && (d.employeeCode.Some? ==> EmployeeCodeOk(d.employeeCode.value))
    && (d.firstName.Some? ==> NonEmpty(d.firstName.value))
    && (d.lastName.Some? ==> NonEmpty(d.lastName.value))
    && (d.email.Some? ==> formats.isEmail(d.email.value))
    && (d.departmentId.Some? ==> NonEmpty(d.departmentId.value))
    && (d.title.Some? ==> NonEmpty(d.title.value))
    && (d.status.Some? ==> IsEmployeeStatus(d.status.value))
    && (d.managerId.Some? ==> NonEmpty(d.managerId.value))
    && (d.joinedDate.Some? ==> formats.isDateTime(d.joinedDate.value))
  }

  /** The fields `employeeBaseSchema` does not mark optional. */
  predicate RequiredPresent(d: EmployeeDraft) {
    && d.employeeCode.Some? && d.firstName.Some? && d.lastName.Some?
    && d.email.Some? && d.departmentId.Some? && d.title.Some?
  }

  /** `employeeCreateSchema`. */
  predicate CreateValid(d: EmployeeDraft, formats: Formats) {
    RequiredPresent(d) && FieldsValid(d, formats)
  }

  /** `employeeUpdateSchema`: every field optional, but at least one present. */
  predicate UpdateValid(d: EmployeeDraft, formats: Formats) {
    FieldsValid(d, formats) && d != EmptyDraft
  }

  /** A stored employee, the shape `employeeResponseSchema` describes. */
  datatype EmployeeRecord = EmployeeRecord(
    id: string,
    employeeCode: string,
    firstName: string,
    lastName: string,
    email: string,
    departmentId: string,
    title: string,
    status: string,
    phone: Option<string>,
    managerId: Option<string>,
    joinedDate: Option<string>,
    createdAt: string,
    updatedAt: string)

  /** The base-schema fields of a record, as a body carrying all of them. */
  function BaseFieldsOf(r: EmployeeRecord): (d: EmployeeDraft)
    ensures RequiredPresent(d) && d.status == Some(r.status)
  {
    EmployeeDraft(Some(r.employeeCode), Some(r.firstName), Some(r.lastName), Some(r.email),
                  Some(r.departmentId), Some(r.title), Some(r.status), r.phone, r.managerId, r.joinedDate)
  }

  /** `employeeResponseSchema`: the base schema with a required status, a non-empty id and date-time stamps. */
  predicate ResponseValid(r: EmployeeRecord, formats: Formats) {
    && CreateValid(BaseFieldsOf(r), formats)
    && NonEmpty(r.id)
    && formats.isDateTime(r.createdAt)
    && formats.isDateTime(r.updatedAt)
  }

  datatype Department = Department(id: string, name: string, description: Option<string>, managerId: Option<string>)

  /** `departmentSchema`. */
  predicate DepartmentValid(d: Department) {
    NonEmpty(d.id) && NonEmpty(d.name) && (d.managerId.Some? ==> NonEmpty(d.managerId.value))
  }

  datatype JobGrade = JobGrade(id: string, name: string, description: Option<string>)

  /** `jobGradeSchema`. */
  predicate JobGradeValid(g: JobGrade) {
    NonEmpty(g.id) && NonEmpty(g.name)
  }

  /**
   What a valid create body means field by field, in characters: a code of
   1 to 64 characters, non-empty names, department and title, a status from
   the enumeration when given, a non-empty manager id when given, and
   well-formed email and joining date.
   */
  lemma CreateValidMeaning(d: EmployeeDraft, formats: Formats)
    requires CreateValid(d, formats)
    ensures 1 <= |d.employeeCode.value| <= 64
    ensures d.firstName.value != "" && d.lastName.value != "" && d.departmentId.value != "" && d.title.value != ""
    ensures d.status.Some? ==>
      d.status.value == "active" || d.status.value == "on_leave" || d.status.value == "terminated" || d.status.value == "probation"
    ensures d.managerId.Some? ==> d.managerId.value != ""
    ensures formats.isEmail(d.email.value)
    ensures d.joinedDate.Some? ==> formats.isDateTime(d.joinedDate.value)
  {
  }

  /** The code limit counts UTF-16 code units: 64 characters outside the Basic Multilingual Plane are too many. */
  lemma EmployeeCodeCountsCodeUnits(code: string)
    requires |code| == 64 && forall i :: 0 <= i < |code| ==> IsAstral(code[i])
    ensures !EmployeeCodeOk(code)
  {
    AstralLength(code);
  }

  /** For text inside the Basic Multilingual Plane the code limit is exactly 1 to 64 characters. */
  lemma EmployeeCodeOfBmp(code: string)
    requires forall i :: 0 <= i < |code| ==> !IsAstral(code[i])
    ensures EmployeeCodeOk(code) <==> 1 <= |code| <= 64
  {
    Utf16LengthOfBmp(code);
  }

  /** Text made only of astral characters has two UTF-16 code units per character. */
  lemma {:induction false} AstralLength(s: string)
    requires forall i :: 0 <= i < |s| ==> IsAstral(s[i])
    ensures Utf16Length(s) == 2 * |s|
  {
    if |s| > 0 {
      AstralLength(s[1..]);
    }
  }

  /** An update body is rejected exactly when it carries no field or carries an invalid one. */
  lemma UpdateNeedsAField(d: EmployeeDraft, formats: Formats)
    ensures !UpdateValid(EmptyDraft, formats)
    ensures UpdateValid(d, formats) <==>
      FieldsValid(d, formats) &&
      (d.employeeCode.Some? || d.firstName.Some? || d.lastName.Some? || d.email.Some? || d.departmentId.Some?
       || d.title.Some? || d.status.Some? || d.phone.Some? || d.managerId.Some? || d.joinedDate.Some?)
  {
  }

  /** Every valid create body is also a valid update body. */
  lemma CreateBodyIsUpdateBody(d: EmployeeDraft, formats: Formats)
    requires CreateValid(d, formats)
    ensures UpdateValid(d, formats)
  {
  }
}

=== FILE: employee_service.dfy ===
/**
 The employee directory's in-memory store and the store logic of its
 endpoints: create with a server-assigned id and timestamps, partial
 update, the configurable email-uniqueness rule, reads, and the
 reference-data listings.

 Each endpoint is a pure function from the stores, the environment (the
 duplicate-email policy, the format checks, the current ISO timestamp, the
 UUID `randomUUID` would return) and the parsed body to the new stores and
 the response.
 */
module EmployeeService {
  import opened Base
  import opened EmployeeSchema

  /**
   The three stores. No request writes the department or job-grade store
   after seeding, so each is kept as the sequence of its values in insertion
   order, the order `Map.prototype.values` yields them.
   */
  datatype EmployeeState = EmployeeState(
    employees: map<string, EmployeeRecord>,
    departments: seq<Department>,
    jobGrades: seq<JobGrade>)

  /** What a request sees from outside: policy, format checks, current timestamp, next UUID. */
  datatype Env = Env(allowDuplicateEmail: bool, formats: Formats, now: string, uuid: string)

  datatype Outcome =
    | Ok(employee: EmployeeRecord)
    | Created(employee: EmployeeRecord)
    | InvalidRequest
    | NotFound
    | Conflict
      /** `employeeResponseSchema.parse` threw on the record about to be returned. */
    | ServerError

  /** The stores after a request, and its response. */
  datatype Step = Step(state: EmployeeState, outcome: Outcome)

  /** Every record is stored under its own id. */
  ghost predicate KeysMatchIds(store: map<string, EmployeeRecord>) {
    forall id :: id in store ==> store[id].id == id
  }

  /** No two stored records share an email. */
  ghost predicate EmailsUnique(store: map<string, EmployeeRecord>) {
    forall a, b :: a in store && b in store && a != b ==> store[a].email != store[b].email
  }

  /** Every record is keyed by its id and passes the response schema. */
  ghost predicate StoreValid(store: map<string, EmployeeRecord>, formats: Formats) {
    KeysMatchIds(store) && forall id :: id in store ==> ResponseValid(store[id], formats)
  }

  /**
   `createRecord`: a new record carrying every field of the body, the
   status defaulted to `active`, and one timestamp as both creation and
   update time.
   */
  function CreateRecord(input: EmployeeDraft, id: string, timestamp: string): (r: EmployeeRecord)
    requires RequiredPresent(input)
    ensures r.id == id && r.createdAt == timestamp && r.updatedAt == r.createdAt
    ensures r.status == input.status.GetOr(DefaultStatus)
    ensures BaseFieldsOf(r) == input.(status := Some(r.status))
  {
    EmployeeRecord(
      id, input.employeeCode.value, input.firstName.value, input.lastName.value, input.email.value,
      input.departmentId.value, input.title.value, input.status.GetOr(DefaultStatus),
      input.phone, input.managerId, input.joinedDate, timestamp, timestamp)
  }

  /** Field by field, the patch's value where it has one and the base's otherwise. */
  function Overlay(base: EmployeeDraft, patch: EmployeeDraft): EmployeeDraft {
    EmployeeDraft(
      patch.employeeCode.OrElse(base.employeeCode), patch.firstName.OrElse(base.firstName),
      patch.lastName.OrElse(base.lastName), patch.email.OrElse(base.email),
      patch.departmentId.OrElse(base.departmentId), patch.title.OrElse(base.title),
      patch.status.OrElse(base.status), patch.phone.OrElse(base.phone),
      patch.managerId.OrElse(base.managerId), patch.joinedDate.OrElse(base.joinedDate))
  }

  /**
   `applyUpdate`: the fields the patch carries overwrite, the others keep
   their values, id and creation time never change, and the update time is
   always `timestamp`.
   */
  function ApplyUpdate(existing: EmployeeRecord, patch: EmployeeDraft, timestamp: string): (r: EmployeeRecord)
    ensures r.id == existing.id && r.createdAt == existing.createdAt && r.updatedAt == timestamp
    ensures BaseFieldsOf(r) == Overlay(BaseFieldsOf(existing), patch)
  {
    existing.(
      employeeCode := patch.employeeCode.GetOr(existing.employeeCode),
      firstName := patch.firstName.GetOr(existing.firstName),
      lastName := patch.lastName.GetOr(existing.lastName),
      email := patch.email.GetOr(existing.email),
      departmentId := patch.departmentId.GetOr(existing.departmentId),
      title := patch.title.GetOr(existing.title),
      status := patch.status.GetOr(existing.status),
      phone := patch.phone.OrElse(existing.phone),
      managerId := patch.managerId.OrElse(existing.managerId),
      joinedDate := patch.joinedDate.OrElse(existing.joinedDate),
      updatedAt := timestamp)
  }

  /** `record` uses `email` and is not the record being updated. */
  predicate Clashes(record: EmployeeRecord, email: string, exclude: Option<string>) {
    record.email == email && (exclude.None? || record.id != exclude.value)
  }

  /** `ensureEmailUnique` returns normally: duplicates are allowed, or no other record uses the email. */
  predicate EmailAvailable(store: map<string, EmployeeRecord>, allowDuplicateEmail: bool, email: string,
                           exclude: Option<string>) {
    allowDuplicateEmail || forall r :: r in store.Values ==> !Clashes(r, email, exclude)
  }

  /** `ensureEmailUnique` as the loop over the stored records it is; `false` where it throws 409. */
  method EnsureEmailUnique(store: map<string, EmployeeRecord>, allowDuplicateEmail: bool, email: string,
                           exclude: Option<string>) returns (unique: bool)
    ensures allowDuplicateEmail ==> unique
    ensures unique <==> allowDuplicateEmail || forall id :: id in store ==> !Clashes(store[id], email, exclude)
    ensures unique <==> EmailAvailable(store, allowDuplicateEmail, email, exclude)
  {
    if allowDuplicateEmail {
      return true;
    }
    var pending := store.Values;
    while pending != {}
      invariant pending <= store.Values
      invariant forall r :: r in store.Values && r !in pending ==> !Clashes(r, email, exclude)
      decreases pending
    {
      var record :| record in pending;
      if Clashes(record, email, exclude) {
        assert record in store.Values;
        return false;
      }
      pending := pending - {record};
    }
    return true;
  }

  /** `toResponse`: the record itself when it passes the response schema; `None` where `parse` throws. */
  function ToResponse(r: EmployeeRecord, formats: Formats): Option<EmployeeRecord> {
    if ResponseValid(r, formats) then Some(r) else None
  }

  /** The response for a record that was just stored. */
  function Respond(s: EmployeeState, r: EmployeeRecord, formats: Formats, success: EmployeeRecord -> Outcome): Step {
    match ToResponse(r, formats)
    case Some(v) => Step(s, success(v))
    case None => Step(s, ServerError)
  }

  /** `GET /employees`: every stored record, or `None` when one of them fails the response schema. */
  function ListEmployees(s: EmployeeState, formats: Formats): (listed: Option<set<EmployeeRecord>>)
    ensures listed.Some? <==> forall id :: id in s.employees ==> ResponseValid(s.employees[id], formats)
    ensures listed.Some? ==> forall id :: id in s.employees ==> s.employees[id] in listed.value
    ensures listed.Some? ==> forall r :: r in listed.value ==> exists id :: id in s.employees && s.employees[id] == r
  {
    if forall r :: r in s.employees.Values ==> ResponseValid(r, formats) then Some(s.employees.Values) else None
  }

  /** `GET /employees/:id`. */
  function GetEmployee(s: EmployeeState, formats: Formats, id: string): (o: Outcome)
    ensures o == NotFound <==> id !in s.employees
    ensures o.Ok? ==> id in s.employees && o.employee == s.employees[id]
    ensures id in s.employees && ResponseValid(s.employees[id], formats) ==> o.Ok?
    ensures id in s.employees && !ResponseValid(s.employees[id], formats) ==> o == ServerError
  {
    if id !in s.employees then NotFound
    else match ToResponse(s.employees[id], formats)
      case Some(v) => Ok(v)
      case None => ServerError
  }

  /**
   `POST /employees`: validate, enforce the email rule, then store a new
   record under the id `randomUUID` returned.
   */
  function PostEmployee(s: EmployeeState, env: Env, body: EmployeeDraft): (r: Step)
    ensures !CreateValid(body, env.formats) ==> r == Step(s, InvalidRequest)
    ensures CreateValid(body, env.formats) && !EmailAvailable(s.employees, env.allowDuplicateEmail, body.email.value, None) ==>
      r == Step(s, Conflict)
    ensures CreateValid(body, env.formats) && EmailAvailable(s.employees, env.allowDuplicateEmail, body.email.value, None) ==>
      var record := CreateRecord(body, env.uuid, env.now);
      && r.state == s.(employees := s.employees[env.uuid := record])
      && (ResponseValid(record, env.formats) ==> r.outcome == Created(record))
      && (!ResponseValid(record, env.formats) ==> r.outcome == ServerError)
    ensures r.state.departments == s.departments && r.state.jobGrades == s.jobGrades
  {
    if !CreateValid(body, env.formats) then Step(s, InvalidRequest)
    else if !EmailAvailable(s.employees, env.allowDuplicateEmail, body.email.value, None) then Step(s, Conflict)
    else
      var record := CreateRecord(body, env.uuid, env.now);
      Respond(s.(employees := s.employees[record.id := record]), record, env.formats, v => Created(v))
  }

  /**
   `PATCH /employees/:id`: an unknown id is 404 before the body is looked
   at; the email rule runs only for a non-empty email and ignores the
   record being updated; only the target record changes.
   */
  function PatchEmployee(s: EmployeeState, env: Env, id: string, body: EmployeeDraft): (r: Step)
    ensures r.outcome == NotFound <==> id !in s.employees
    ensures id !in s.employees ==> r == Step(s, NotFound)
    ensures id in s.employees && !UpdateValid(body, env.formats) ==> r == Step(s, InvalidRequest)
    ensures id in s.employees && UpdateValid(body, env.formats) && body.email.Some? && body.email.value != ""
            && !EmailAvailable(s.employees, env.allowDuplicateEmail, body.email.value, Some(id)) ==>
      r == Step(s, Conflict)
    ensures id in s.employees && UpdateValid(body, env.formats)
            && (body.email.None? || body.email.value == ""
                || EmailAvailable(s.employees, env.allowDuplicateEmail, body.email.value, Some(id))) ==>
      var updated := ApplyUpdate(s.employees[id], body, env.now);
      && r.state == s.(employees := s.employees[id := updated])
      && (ResponseValid(updated, env.formats) ==> r.outcome == Ok(updated))
      && (!ResponseValid(updated, env.formats) ==> r.outcome == ServerError)
    ensures r.state.employees.Keys == s.employees.Keys
    ensures forall k :: k in s.employees && k != id ==> r.state.employees[k] == s.employees[k]
    ensures r.state.departments == s.departments && r.state.jobGrades == s.jobGrades
  {
    if id !in s.employees then Step(s, NotFound)
    else if !UpdateValid(body, env.formats) then Step(s, InvalidRequest)
    else if body.email.Some? && body.email.value != ""
         && !EmailAvailable(s.employees, env.allowDuplicateEmail, body.email.value, Some(id)) then Step(s, Conflict)
    else
      var updated := ApplyUpdate(s.employees[id], body, env.now);
      Respond(s.(employees := s.employees[id := updated]), updated, env.formats, v => Ok(v))
  }

  /**
   `GET /metadata/departments`: every department in store order, or `None`
   when one fails its schema and `parse` throws.
   */
  function ListDepartments(s: EmployeeState): (listed: Option<seq<Department>>)
    ensures listed.Some? <==> forall i :: 0 <= i < |s.departments| ==> DepartmentValid(s.departments[i])
    ensures listed.Some? ==> |listed.value| == |s.departments|
    ensures listed.Some? ==> forall i :: 0 <= i < |s.departments| ==> listed.value[i] == s.departments[i]
  {
    if forall d :: d in s.departments ==> DepartmentValid(d) then Some(s.departments) else None
  }

  /**
   `GET /metadata/job-grades`: every job grade in store order, or `None`
   when one fails its schema and `parse` throws.
   */
  function ListJobGrades(s: EmployeeState): (listed: Option<seq<JobGrade>>)
    ensures listed.Some? <==> forall i :: 0 <= i < |s.jobGrades| ==> JobGradeValid(s.jobGrades[i])
    ensures listed.Some? ==> |listed.value| == |s.jobGrades|
    ensures listed.Some? ==> forall i :: 0 <= i < |s.jobGrades| ==> listed.value[i] == s.jobGrades[i]
  {
    if forall g :: g in s.jobGrades ==> JobGradeValid(g) then Some(s.jobGrades) else None
  }

  // ---------------------------------------------------------------------------
  // `resetEmployeeState`

  const Taro := EmployeeRecord(
    "emp-demo-001", "E0001", "Taro", "Yamada", "taro.yamada@example.com", "d-engineering",
    "Engineering Manager", "active", Some("+81-3-1234-5678"), None, Some("2023-04-01T00:00:00.000Z"),
    "2023-04-01T00:00:00.000Z", "2023-04-01T00:00:00.000Z")

  const Hanako := EmployeeRecord(
    "emp-demo-002", "E0002", "Hanako", "Sato", "hanako.sato@example.com", "d-people-ops",
    "HR Specialist", "on_leave", None, Some("emp-demo-001"), Some("2024-01-10T00:00:00.000Z"),
    "2024-01-10T00:00:00.000Z", "2024-07-15T00:00:00.000Z")

  const PeopleOps := Department("d-people-ops", "People Operations", Some("Human resources and people success team"), None)
  const Engineering := Department("d-engineering", "Engineering", Some("Product engineering organization"), None)
  const Ic3 := JobGrade("g-ic-3", "IC-3", Some("Software Engineer III"))
  const M2 := JobGrade("g-m-2", "M-2", Some("Manager II"))

  /**
   The seeded stores: two employees keyed by id, and two departments and two
   job grades with distinct ids, in the order they are seeded.
   */
  function InitialEmployeeState(): (s: EmployeeState)
    ensures KeysMatchIds(s.employees) && EmailsUnique(s.employees)
    ensures |s.employees| == 2
    ensures s.departments == [PeopleOps, Engineering] && s.departments[0].id != s.departments[1].id
    ensures s.jobGrades == [Ic3, M2] && s.jobGrades[0].id != s.jobGrades[1].id
  {
    EmployeeState(map[Taro.id := Taro, Hanako.id := Hanako], [PeopleOps, Engineering], [Ic3, M2])
  }
}

=== FILE: jwt.dfy ===
/**
 Access-token claims: the payload `issueAccessToken` assembles before
 signing, and the claim checks `verifyAccessToken` asks of a decoded token.

 HS256 signing and JWS compact serialisation belong to the jose library and
 are not modelled; a `Codec` stands for that pair of functions, and
 `RoundTrips` is what the rest of the model assumes about it.
 */
module Jwt {
  import opened Base
  import opened Roles

  /** A JSON value a claim may hold. */
  datatype ClaimValue = Text(text: string) | Number(number: int) | TextList(items: seq<string>) | Null

  /** A JWT payload: claim name to value. */
  type Claims = map<string, ClaimValue>

  const RolesClaim := "roles"
  const SubjectClaim := "sub"
  const IssuerClaim := "iss"
  const AudienceClaim := "aud"
  const IssuedAtClaim := "iat"
  const ExpirationClaim := "exp"

  /** The claims `issueAccessToken` writes itself, whatever the caller's `claims` hold. */
  const RegisteredClaims: set<string> := {RolesClaim, SubjectClaim, IssuerClaim, AudienceClaim, IssuedAtClaim, ExpirationClaim}

  /** `xs` is `ys` with zero or more entries left out, the rest kept in order. */
  predicate IsSubsequence<T(==)>(xs: seq<T>, ys: seq<T>)
    decreases |ys|
  {
    if |xs| == 0 then true
    else if |ys| == 0 then false
    else if xs[0] == ys[0] then IsSubsequence(xs[1..], ys[1..])
    else IsSubsequence(xs, ys[1..])
  }

  /**
   The roles embedded in a token: the input roles that are built-in, each
   occurrence kept, everything else dropped without an error.
   */
  function FilterRoles(roles: seq<string>): (kept: seq<string>)
    ensures forall role :: role in kept ==> IsRbacRole(role)
    ensures forall role :: multiset(kept)[role] == if IsRbacRole(role) then multiset(roles)[role] else 0
  {
    if |roles| == 0 then []
    else
      assert roles == [roles[0]] + roles[1..];
      (if IsRbacRole(roles[0]) then [roles[0]] else []) + FilterRoles(roles[1..])
  }

  /** Every built-in input role reaches the token, and only built-in roles do. */
  lemma FilterRolesKeepsExactlyBuiltins(roles: seq<string>, role: string)
    ensures role in FilterRoles(roles) <==> role in roles && IsRbacRole(role)
  {
  }

  /** Filtering keeps the input order. */
  lemma {:induction false} FilterRolesKeepsOrder(roles: seq<string>)
    ensures IsSubsequence(FilterRoles(roles), roles)
  {
    if |roles| > 0 {
      var rest := FilterRoles(roles[1..]);
      FilterRolesKeepsOrder(roles[1..]);
      if IsRbacRole(roles[0]) {
        assert FilterRoles(roles) == [roles[0]] + rest;
        assert ([roles[0]] + rest)[1..] == rest;
      } else {
        assert FilterRoles(roles) == rest;
        if |rest| > 0 {
          assert rest[0] in rest;
          assert rest[0] != roles[0];
        }
      }
    }
  }

  /** The parameters of `issueAccessToken`; `audience` is the single-string form. */
  datatype IssueParams = IssueParams(
    subject: string,
    audience: Option<string>,
    roles: seq<string>,
    claims: Claims,
    ttlSeconds: nat,
    issuer: string,
    signingKey: string)

  /** `if (audience)`: an absent or empty audience is not set on the token. */
  predicate AudienceGiven(audience: Option<string>) {
    audience.Some? && audience.value != ""
  }

  /** Seconds since the epoch for a millisecond clock reading, rounded down as jose's `epoch` does. */
  function EpochSeconds(nowMs: int): (seconds: int)
    ensures seconds * 1000 <= nowMs < seconds * 1000 + 1000
  {
    nowMs / 1000
  }

  /**
   The payload signed into an access token issued at `issuedAt` (seconds):
   the caller's claims, overridden by the filtered roles, the audience when
   one is given, subject, issuer, issued-at and expiration.
   */
  function AccessTokenClaims(p: IssueParams, issuedAt: int): (c: Claims)
    ensures RolesClaim in c && c[RolesClaim] == TextList(FilterRoles(p.roles))
    ensures SubjectClaim in c && c[SubjectClaim] == Text(p.subject)
    ensures IssuerClaim in c && c[IssuerClaim] == Text(p.issuer)
    ensures IssuedAtClaim in c && c[IssuedAtClaim] == Number(issuedAt)
    ensures ExpirationClaim in c && c[ExpirationClaim] == Number(issuedAt + p.ttlSeconds)
    ensures AudienceGiven(p.audience) ==> AudienceClaim in c && c[AudienceClaim] == Text(p.audience.value)
    ensures !AudienceGiven(p.audience) ==> Get(c, AudienceClaim) == Get(p.claims, AudienceClaim)
    ensures forall name :: name in p.claims && name !in RegisteredClaims ==> name in c && c[name] == p.claims[name]
    ensures forall name :: name in c ==> name in p.claims || name in RegisteredClaims
  {
    var withRoles := p.claims[RolesClaim := TextList(FilterRoles(p.roles))];
    var withAudience :=
      if AudienceGiven(p.audience) then withRoles[AudienceClaim := Text(p.audience.value)] else withRoles;
    withAudience[SubjectClaim := Text(p.subject)][IssuerClaim := Text(p.issuer)]
      [IssuedAtClaim := Number(issuedAt)][ExpirationClaim := Number(issuedAt + p.ttlSeconds)]
  }

  /**
   The signing library: `sign` turns a payload and a shared secret into a
   compact token, `decode` checks the signature under a secret and yields the
   payload (or fails).
   */
  datatype Codec = Codec(sign: (Claims, string) -> string, decode: (string, string) -> Option<Claims>)

  /** A token decodes, under the key that signed it, to the payload it was signed from. */
  ghost predicate RoundTrips(codec: Codec) {
    forall payload: Claims, key: string :: codec.decode(codec.sign(payload, key), key) == Some(payload)
  }

  /** Signed tokens never begin with whitespace (compact JWS is base64url text). */
  ghost predicate CompactTokens(codec: Codec) {
    forall payload: Claims, key: string :: !StartsWithSpace(codec.sign(payload, key))
  }

  /** `issueAccessToken` at clock reading `nowMs` (milliseconds). */
  function IssueAccessToken(codec: Codec, p: IssueParams, nowMs: int): string {
    codec.sign(AccessTokenClaims(p, EpochSeconds(nowMs)), p.signingKey)
  }

  /** An `aud` claim names `audience`, as a single string or as one entry of a list. */
  predicate AudienceIncludes(aud: ClaimValue, audience: string) {
    aud == Text(audience) || (aud.TextList? && audience in aud.items)
  }

  /**
   The claim checks of `jwtVerify` for the options `{ issuer, audience }`:
   the issuer option is always given, so an `iss` claim must be present, and
   it is compared only when the expected issuer is non-empty; an expected
   audience, even an empty one, makes an `aud` claim required, and only a
   non-empty one is compared; an `exp` claim must be a number after the
   current second.
   */
  predicate ClaimsAccepted(payload: Claims, issuer: string, audience: Option<string>, nowSeconds: int) {
    && IssuerClaim in payload
    && (issuer != "" ==> payload[IssuerClaim] == Text(issuer))
    && (audience.Some? ==> AudienceClaim in payload)
    && (AudienceGiven(audience) ==> AudienceIncludes(payload[AudienceClaim], audience.value))
    && (ExpirationClaim in payload ==> payload[ExpirationClaim].Number? && nowSeconds < payload[ExpirationClaim].number)
  }

  /**
   `verifyAccessToken`: the payload of a token whose signature checks under
   `signingKey` and whose issuer, audience and expiry are acceptable at clock
   reading `nowMs`; `None` where jose throws.
   */
  function VerifyAccessToken(codec: Codec, token: string, issuer: string, signingKey: string,
                             audience: Option<string>, nowMs: int): (r: Option<Claims>)
    ensures r.Some? ==> codec.decode(token, signingKey) == r
    ensures r.Some? ==> IssuerClaim in r.value && (issuer != "" ==> r.value[IssuerClaim] == Text(issuer))
    ensures r.Some? && audience.Some? ==> AudienceClaim in r.value
    ensures r.Some? && AudienceGiven(audience) ==> AudienceIncludes(r.value[AudienceClaim], audience.value)
    ensures r.Some? && ExpirationClaim in r.value ==>
      r.value[ExpirationClaim].Number? && EpochSeconds(nowMs) < r.value[ExpirationClaim].number
    ensures codec.decode(token, signingKey).None? ==> r.None?
    ensures forall payload ::
      (codec.decode(token, signingKey) == Some(payload) && ClaimsAccepted(payload, issuer, audience, EpochSeconds(nowMs)))
      ==> r == Some(payload)
  {
    match codec.decode(token, signingKey)
    case None => None
    case Some(payload) => if ClaimsAccepted(payload, issuer, audience, EpochSeconds(nowMs)) then Some(payload) else None
  }

  /**
   An expected audience that is empty is never compared but still demands an
   `aud` claim, which `issueAccessToken` sets only for a non-empty audience.
   */
  predicate AudienceClaimMissing(p: IssueParams) {
    p.audience == Some("") && AudienceClaim !in p.claims
  }

  /**
   A token issued with the same key, issuer and audience verifies exactly
   until its expiration second, and yields the payload it was issued with;
   with an empty audience and no `aud` among the caller's claims it never
   verifies.
   */
  lemma IssueThenVerify(codec: Codec, p: IssueParams, issuedMs: int, verifiedMs: int)
    requires RoundTrips(codec)
    ensures VerifyAccessToken(codec, IssueAccessToken(codec, p, issuedMs), p.issuer, p.signingKey, p.audience, verifiedMs)
            == if !AudienceClaimMissing(p) && EpochSeconds(verifiedMs) < EpochSeconds(issuedMs) + p.ttlSeconds
               then Some(AccessTokenClaims(p, EpochSeconds(issuedMs)))
               else None
  {
  }
}

=== FILE: roles.dfy ===
/**
 The built-in role-based access control roles: their fixed declaration order
 and the human-readable description of each.
 */
module Roles {

  /** The built-in roles, in declaration order. */
  const RbacRoles: seq<string> := ["employee", "manager", "hr_admin", "finance_admin", "system_admin"]

  /** The `RbacRole` type: a string is a role exactly when it is one of the built-ins. */
  predicate IsRbacRole(role: string) {
    role in RbacRoles
  }

  /** The description of every built-in role, keyed by role. */
  const RoleDescriptions: map<string, string> := map[
    "employee" := "一般社員向けの標準権限",
    "manager" := "部門マネージャ向けの承認・レポート権限",
    "hr_admin" := "人事部門の管理者権限",
    "finance_admin" := "経理部門の管理者権限",
    "system_admin" := "システム運用者向けの全権限"
  ]

  /** The description of a built-in role, as `ROLE_DESCRIPTIONS[role]` reads it. */
  function DescriptionOf(role: string): (d: string)
    requires IsRbacRole(role)
    ensures role in RoleDescriptions && d == RoleDescriptions[role]
    ensures forall other :: other in RoleDescriptions && other != role ==> RoleDescriptions[other] != d
  {
    RoleDescriptionsCoverRoles();
    RoleDescriptions[role]
  }

  /** Each built-in role's description, role by role. */
  lemma RoleDescriptionPairs()
    ensures DescriptionOf("employee") == "一般社員向けの標準権限"
    ensures DescriptionOf("manager") == "部門マネージャ向けの承認・レポート権限"
    ensures DescriptionOf("hr_admin") == "人事部門の管理者権限"
    ensures DescriptionOf("finance_admin") == "経理部門の管理者権限"
    ensures DescriptionOf("system_admin") == "システム運用者向けの全権限"
  {
  }

  /** The built-ins are exactly the five roles, in this order. */
  lemma RbacRolesInOrder()
    ensures |RbacRoles| == 5
    ensures RbacRoles[0] == "employee" && RbacRoles[1] == "manager" && RbacRoles[2] == "hr_admin"
    ensures RbacRoles[3] == "finance_admin" && RbacRoles[4] == "system_admin"
  {
  }

  /** No built-in role is declared twice. */
  lemma RbacRolesDistinct()
    ensures forall i, j :: 0 <= i < j < |RbacRoles| ==> RbacRoles[i] != RbacRoles[j]
  {
  }

  /** Membership in `RbacRole` is membership in the five built-in names and nothing else. */
  lemma IsRbacRoleIsMembership(role: string)
    ensures IsRbacRole(role) <==>
      role == "employee" || role == "manager" || role == "hr_admin" || role == "finance_admin" || role == "system_admin"
  {
  }

  /** The description map is keyed by exactly the built-in roles. */
  lemma RoleDescriptionsCoverRoles()
    ensures RoleDescriptions.Keys == set role | role in RbacRoles
  {
  }
}
